=== FILE: README.md ===
# Number-lottery rounds and money rules, modelled in Dafny

This project models the checkable core of a number-lottery server and its browser client.
Each round draws one digit, 0 to 9. The digit determines a colour (green, red or violet) and a size (big or small).
Players bet on the colour, the exact number or the size. Winning bets pay 2x, 9x and 1.8x the stake.

The core consists of:

- **Outcome derivation.** `Outcomes` maps a digit to its colour and size.
- **The per-track round engine.** `GameService` models four independent tracks of 30 s, 1 min, 3 min and 5 min. Each track has a phase, a countdown, a round counter and a bet book. A global lock keeps a player to one track at a time.
- **The legacy single-track loop.** `LegacyGame` models the older loop of the server's entry file:
  - each player may hold one bet per bet type string, and a type outside the three known ones is kept under its own string;
  - bets sent outside the betting phase are dropped;
  - the result shows for 10 s;
  - balances are updated inline at settlement.
- **Settlement.** `Settlement` covers the per-bet balance change, the bet counters, and settling a whole round. `Payouts` holds the payout table, and `UserModel` holds the user record.
- **Wallet posting.** `Wallet` credits a deposit or debits a withdrawal. The balance, the request, the ledger and the request history are updated all-or-nothing.
- **Deposit and withdrawal requests.** `Transactions` holds the request record: its enums, validators and pre-save hook. `Requests` holds the request lifecycle: create, approve, reject, complete, and list pending requests.
- **Small helpers.**
  - `AdminAuth`: the admin permission gate.
  - `Helpers`: order ids, user ids and the response envelopes.
  - `Client`: the browser's bet toggle, clock display and local winnings rule.

Supporting modules:

- `Wrappers`: `Option` and `Result`.
- `Text`: the JavaScript string operations the code relies on.
- `BetBook`: a `Map` with its insertion order.
- `Store`: the collections and the paging arithmetic.

Conventions:

- Money is an `int` counting tenths of a unit, so the 1.8x multiplier is exact. Stakes are whole units, and the multipliers are 20, 90 and 18 tenths.
- Collections are immutable values:
  - users are a map keyed by user id;
  - requests, ledger entries and history entries are sequences in insertion order.
- Randomness, the clock and the outcome of database writes are parameters: the drawn digit, `now` in milliseconds, the random base-36 text, and a `writeOk` or `saved` flag.

Behaviour of the code worth knowing up front:

- `processTransaction` checks no status, so replaying it on a completed request credits or debits a second time. `Wallet.ReplayDoubleApplies` proves this.
- Both engines settle a round net of the stake. A win adds `winAmount − stake` and a loss subtracts the stake.
- Requests expire. Each request gets an `expiresAt` 24 hours after creation, and a TTL index on that field deletes the document once that time has passed, whatever its status. After that, approving, rejecting or posting the request finds nothing (`Store.ExpireRequests`, `Requests.ExpiredRequestGone`, `Wallet.ExpiredPostingMissing`). The wallet ledger and the request history are separate collections and stay.

## Model

| member | source | states |
|---|---|---|
| Outcomes.NumberColor | server/utils/gameUtils.js:1-6 | green exactly for 1, 3, 7, 9; red exactly for 2, 4, 6, 8; every other value, 0 and 5 included, is violet |
| Outcomes.NumberSize | server/utils/gameUtils.js:8-10 | big if and only if the number is at least 5 |
| Outcomes.GenerateResult | server/services/GameService.js:57-63 | the outcome carries the drawn digit with the colour and size that digit determines |
| Outcomes.ColorIsParity | server/utils/gameUtils.js:3-4 | away from 0 and 5, odd digits are green and even digits red |
| Outcomes.VioletDigits | server/utils/gameUtils.js:2-5 | the violet digits are exactly 0 and 5; 0 is violet and small, 5 is violet and big |
| Outcomes.OutOfRangeIsViolet | server/utils/gameUtils.js:5 | any value outside 0..9 falls through to violet |
| Payouts.WinTenths | server/services/GameService.js:136-152 | a matching bet wins its stake times 2, 9 or 1.8 according to its type; a non-matching bet wins 0; for a positive stake the win is positive exactly when the bet matches |
| Payouts.RecordFor | server/services/GameService.js:113-123 | a settled bet is marked won exactly when its win is positive, and a lost bet records a win of 0 |
| Payouts.BalanceChange | server/services/BettingService.js:26 | the balance change plus the stake equals the payout when the win is positive, and 0 otherwise |
| Payouts.PaidOut | server/services/BettingService.js:35 | the amount added to `totalWins` is the win when the win is positive and 0 otherwise, so it is never negative |
| Payouts.LossBoundedByStake | server/services/BettingService.js:26 | a bet never costs more than its stake, and costs something exactly when it does not match |
| UserModel.NewUser | server/models/User.js:27-39 | a new user has balance 0, which satisfies the `min: 0` rule, and zero totals |
| UserModel.AddBet | server/models/User.js:72-79 | the stake always joins `totalBets`; the win joins `totalWins` only when positive; the balance is untouched |
| UserModel.AddBetKeepsWallet | server/models/User.js:72-79 | recording a bet keeps a valid balance valid and never lowers `totalWins` |
| Settlement.GetUserBalance | server/services/BettingService.js:19-23 | succeeds exactly when the user exists, with the stored balance; otherwise fails with "User not found" |
| Settlement.GetUserStats | server/services/BettingService.js:4-17 | succeeds exactly when the user exists, with the balance and both totals |
| Settlement.UpdateUserBalance | server/services/BettingService.js:25-48 | upserts the player, who starts from zero when absent; moves the balance by the bet's change; adds the stake to `totalBets` and any win to `totalWins`; changes no other user |
| Settlement.ProcessWinnings | server/services/BettingService.js:50-56 | settling a list of records leaves the stored users plus every player the records name, and no one else |
| Settlement.ProcessWinningsTotals | server/services/BettingService.js:50-56 | after settling a list of records, the stored users are the old ones plus every named player. Each player's balance and totals are the starting values plus the sums of that player's per-record increments |
| Settlement.ProcessWinningsOrderFree | server/services/BettingService.js:50-56 | settling any permutation of the same records gives the same users collection, so the concurrent updates may land in any order |
| BetBook.Empty | server/services/GameService.js:16 | a new bet book is well formed and empty |
| BetBook.Put | server/services/GameService.js:79 | `set` replaces the value of the key. A new key goes last in iteration order, and an existing key keeps its place. The book stays well formed |
| GameService.Initial | server/services/GameService.js:10-46 | each track starts at round 1, taking bets, with its full duration (30, 60, 180, 300 s), no bets and no result; there are no locks; the engine invariant holds |
| GameService.SnapshotIgnoresBets | server/services/GameService.js:48-55 | what `getCurrentState` reports is the track's phase, clock, round and last result: an accepted bet changes no track's report, and a timer tick changes only its own track's clock, by one second |
| GameService.AddBet | server/services/GameService.js:65-83 | a player locked to another track is refused before the phase is looked at; a closed track refuses; on success the player's bets on this track become exactly the new bet, the lock points at this track, and nothing else changes |
| GameService.AddBetKeepsInv | server/services/GameService.js:65-83 | an accepted bet keeps the invariant: every bettor on a track in its betting phase is locked to that track, with one bet each |
| GameService.Holders | server/services/GameService.js:109-112 | the players that settlement visits are the bettors with a non-empty bet list, every one of them, without repeats when the book lists each player once |
| GameService.HoldersKeepBookOrder | server/services/GameService.js:109-112 | settlement visits the bettors in the book's insertion order: of two bettors, the one visited first was inserted first |
| GameService.ProcessBets | server/services/GameService.js:106-134 | one record per player holding a bet, in book order, each the record of that player's first bet. Such a player's lock is released only when it points at this track, and no other lock changes |
| GameService.EndBettingPhase | server/services/GameService.js:85-104 | the track shows the drawn outcome for 3 s in the same round; locks are released as by `ProcessBets`; other tracks are untouched; the call resolves with the round's records exactly when the round record is saved, one record per bettor in book order, each that bettor's first bet settled against the draw; the invariant is kept |
| GameService.StartNewRound | server/services/GameService.js:154-179 | the round goes up by exactly one. The track takes bets again for its full duration with an empty book. Other tracks and the locks are untouched, and the invariant is kept |
| GameService.UpdateTimer | server/services/GameService.js:181-184 | the track's clock drops by exactly one second and is returned; nothing else changes; the invariant is kept |
| GameService.NoTwoOpenBets | server/services/GameService.js:65-83 | under the invariant no player holds bets on two tracks that are both taking bets |
| GameService.CrossTrackRefused | server/services/GameService.js:66-71 | a player with an open bet on one track is refused on every other track, naming both tracks |
| GameService.RoundsMonotone | server/services/GameService.js:85-184 | only `startNewRound` changes a round number, and only by one on its own track |
| GameService.RebetReplaces | server/services/GameService.js:77-82 | a second bet on the same open track is accepted and replaces the first |
| LegacyGame.Initial | server/server.js:60-67 | round 1, taking bets, 30 s on the clock, no bets, no result; the loop invariant holds |
| LegacyGame.LegacyWinTenths | server/server.js:92-111 | the loop's three independent checks pay exactly what the service's switch pays |
| LegacyGame.InlineDeltaIsServiceRule | server/server.js:174-187 | the inline increment moves the balance by the win less the stake when won and by minus the stake otherwise, adds the stake to `totalBets` and adds the win to `totalWins` only when won; the service's per-bet update does the same |
| LegacyGame.IndexOfKind | server/server.js:263 | the position of the first bet of the given type, or -1 exactly when there is none |
| LegacyGame.Upsert | server/server.js:262-269 | the new bet is present; bets of other types are kept and no other bet is added; with at most one bet per type before, there is at most one after and the one of this type is the new bet |
| LegacyGame.UnknownTypesKeptApart | server/server.js:262-269 | two bets whose types are different unknown strings are both kept, and settlement charges both stakes and pays neither |
| LegacyGame.PlaceBet | server/server.js:252-273 | outside the betting phase the state is unchanged; otherwise only the player's list changes, by `Upsert`; the loop invariant is kept |
| LegacyGame.PlayerRecords | server/server.js:161-172 | one record per bet of the player, in list order |
| LegacyGame.SettlePlayers | server/server.js:159-172 | the records a round settles name exactly the players of the book holding at least one bet |
| LegacyGame.EndBettingPhase | server/server.js:150-192 | the result shows for 10 s with the drawn outcome, the round unchanged and the bets kept. The users are the old ones plus every player holding a bet; a user without bets keeps their record; each bettor's balance, `totalBets` and `totalWins` become the starting ones, zero for a new player, plus the sums over all of that player's bets |
| LegacyGame.SettledTotal | server/server.js:160-192 | in the records a round settles, a player's total is the total over that player's own bets |
| LegacyGame.StartNewRound | server/server.js:217-221 | next round, taking bets for 30 s, with an empty book |
| LegacyGame.Tick | server/server.js:124-148 | the clock drops by one. When it is still positive nothing else happens. When it reaches zero, a betting phase ends into a 10 s result in the same round with every bettor settled as by `EndBettingPhase`, and a result phase gives way to the next round with no bets and the users unchanged. The invariant is kept |
| LegacyGame.BettingLastsItsClock | server/server.js:124-152 | a betting phase with k seconds left ends after exactly k ticks, showing the last draw for 10 s in the same round |
| LegacyGame.ResultLastsItsClock | server/server.js:136-146 | a result phase with k seconds left ends after exactly k ticks in the next round, taking bets for 30 s with no bets, with the users unchanged |
| Helpers.SuccessResponse | server/utils/Helpers.js:1-8 | the envelope has `success` true, the message and the data, which defaults to `{}`; the status defaults to 200 |
| Helpers.ErrorResponse | server/utils/Helpers.js:10-17 | the envelope has `success` false, the message and the errors, which default to `[]`; the status defaults to 500 |
| Helpers.EnvelopesDiffer | server/utils/Helpers.js:1-17 | the two envelopes always differ in `success`, and each lacks the other's payload field |
| Helpers.EnvelopesReadBack | server/utils/Helpers.js:1-17 | a caller reading either envelope recovers what it was built from: the message with the data of a success, or the message with the errors of a failure, defaults included |
| Helpers.RandomChunk | server/utils/Helpers.js:22 | characters 2 to 5 of the random text, each upper-cased: four of them when the text has six or more characters, and only those that exist when it is shorter |
| Helpers.GenerateOrderId | server/utils/Helpers.js:19-24 | starts "DEP" exactly for type DEPOSIT and "WTH" for any other type; at most 15 characters; with a clock of eight or more digits, characters 3 to 10 are digits and the rest is the random chunk |
| Helpers.OrderIdStampDecodes | server/utils/Helpers.js:21 | the eight digits read back as the clock modulo 10^8 |
| Helpers.OrderIdsKeepTypesApart | server/utils/Helpers.js:20 | a deposit's order id never equals a withdrawal's |
| Helpers.GenerateUserId | server/utils/Helpers.js:26-31 | starts "USR"; at most 13 characters; with a clock of six or more digits, characters 3 to 8 are digits and the rest is the random chunk |
| Helpers.UserIdStampDecodes | server/utils/Helpers.js:28 | the six digits read back as the clock modulo 10^6 |
| AdminAuth.RequirePermission | server/middlewares/adminAuth.js:32-44 | `next` is called once exactly when the admin holds the permission or is a SUPER_ADMIN; otherwise it is not called and a 403 "Insufficient permissions" error envelope is sent |
| AdminAuth.SuperAdminPassesAll | server/middlewares/adminAuth.js:34-37 | a SUPER_ADMIN passes with any permission list, even an empty one |
| AdminAuth.GrantingIsMonotone | server/middlewares/adminAuth.js:34-37 | granting a permission never closes an open gate |
| Transactions.NewTransaction | server/models/Transaction.js:26-79 | a new request carries the given id, order id, user, type and amount. It is PENDING, submitted and created now, and expires 86 400 000 ms later. It has no admin action and no processing or completion time. The UTR number and UPI id are present exactly when given, and then trimmed |
| Transactions.Errors | server/models/Transaction.js:5-63 | an empty order id or user id fails its `required` check; a deposit fails the UTR check exactly when its UTR number is present and empty; a withdrawal fails the UPI check exactly when its UPI id is present and empty; an absent value is not checked; an action type outside the enum fails |
| Transactions.BlankUtrRejected | server/models/Transaction.js:32-41 | a deposit whose UTR is all whitespace is refused, because the value is trimmed before it is checked |
| Transactions.AbsentFieldAccepted | server/models/Transaction.js:35-50 | a withdrawal without a UPI id, or a deposit without a UTR number, passes the field check, and such a withdrawal with its ids set validates |
| Transactions.PreSave | server/models/Transaction.js:86-96 | only the two timestamps may change. `processedAt` is stamped only when the status changed to PROCESSING, and `completedAt` only when it changed to COMPLETED. A changed status of either kind is always stamped |
| Transactions.PreSaveStampsOnlyOnChange | server/models/Transaction.js:86-93 | an unchanged status, or a status other than PROCESSING or COMPLETED, stamps nothing |
| Transactions.Save | server/models/Transaction.js:86-96 | a save succeeds exactly when validation passes and the write succeeds; it then stores the document as the hook leaves it; a validation failure reports every failed check |
| Store.FindTxn | server/services/WalletService.js:13-16 | finds a request with the given id, and finds none exactly when no request has it |
| Store.UpdateHistory | server/services/WalletService.js:67-76 | every history entry of the request is rewritten and the others are kept |
| Store.Retag | server/services/TransactionService.js:109-112 | every history entry of the request gets the tag and nothing else changes |
| Store.Window | server/services/TransactionService.js:244-246 | the page holds the items from position (page−1)·limit on, at most `limit` of them |
| Store.CeilDiv | server/services/WalletService.js:113 | the smallest number of pages of `limit` entries that holds `total` entries |
| Store.Unexpired | server/models/Transaction.js:100 | the requests that survive the TTL index at a given time are exactly those whose `expiresAt` is still ahead |
| Store.ExpireRequests | server/models/Transaction.js:100 | one pass of the TTL index removes exactly the expired requests, whatever their status, and touches nothing else in the database |
| Store.ExpiredNotFound | server/models/Transaction.js:100 | once a request is past its expiry, looking it up by id finds nothing |
| Store.PageWithinCount | server/services/WalletService.js:105-113 | a page is non-empty exactly when its number is at most the reported page count |
| Wallet.ProcessTransaction | server/services/WalletService.js:8-95 | a missing request or user is reported, and so is a withdrawal above the balance. For an existing request and user, the posting succeeds exactly when the amount is covered (or it is a deposit), the new balance is not negative, the completed request validates and the write succeeds. Any error leaves the database as it was. On success a deposit adds the amount and a withdrawal subtracts it. The request is COMPLETED with action PAID for a withdrawal and APPROVED for a deposit. One CREDIT or DEBIT entry is appended with the old and new balances, and the request's history is tagged COMPLETED with both balances and the remarks. Nothing else changes |
| Wallet.PostingKeepsLedgerConsistent | server/services/WalletService.js:23-64 | if every user's balance equals the `balanceAfter` of that user's newest ledger entry, a posting keeps it so |
| Wallet.BalanceMatchesNewEntry | server/services/WalletService.js:37-63 | after a posting the balance query returns the new entry's `balanceAfter` |
| Wallet.ExpiredPostingMissing | server/services/WalletService.js:13-16 | after the TTL index has removed an expired request, posting it reports a missing request |
| Wallet.ReplayDoubleApplies | server/services/WalletService.js:13-42 | posting the same deposit twice succeeds twice and credits the amount twice, with two ledger entries |
| Wallet.GetWalletBalance | server/services/WalletService.js:97-100 | the stored balance, or 0 for an unknown user |
| Wallet.EntriesOf | server/services/WalletService.js:103 | the entries of the user, every one of them, and no one else's |
| Wallet.GetWalletHistory | server/services/WalletService.js:102-117 | reports the user's entry count, and the page count as that count divided by the limit, rounded up. Echoes the page number. Holds at most `limit` entries, and is non-empty exactly when the page is within the count |
| Wallet.HistoryPageContents | server/services/WalletService.js:103-107 | the page holds the user's entries counted from the newest, starting (page−1)·limit entries in |
| Requests.AddToHistory | server/services/TransactionService.js:195-221 | the history line copies the request and records the current balance as both the before and the after balance, with the default tag PROCESSING_PAYMENT |
| Requests.Submit | server/services/TransactionService.js:21-39 | the request is stored, with its history line, exactly when it validates, clashes with no stored id or order id, and the write succeeds; otherwise nothing is stored |
| Requests.CreateDeposit | server/services/TransactionService.js:8-48 | an unknown user is refused. Success means the user exists, the UTR number is absent or non-blank, the key is free and the write succeeds. A PENDING deposit with a fresh "DEP" order id is then appended, with a history line at the current balance. The wallet, the users and the ledger are unchanged, and any failure changes nothing |
| Requests.CreateWithdrawal | server/services/TransactionService.js:50-87 | as a deposit, with two differences. It is refused when the balance is below the amount, and a balance equal to the amount is enough. The UPI id must be absent or non-blank, and the order id starts "WTH" |
| Requests.CreateKeepsKeysUnique | server/models/Transaction.js:5-10 | creating requests never gives two requests the same id or order id |
| Requests.ApproveTransaction | server/services/TransactionService.js:89-121 | a missing request is reported, and so is a request that is not PENDING. A PENDING request is approved exactly when the approved document validates and the write succeeds. Any failure changes nothing. On success the request becomes PROCESSING with action APPROVED and `processedAt` stamped now, and its history is tagged PROCESSING_PAYMENT |
| Requests.ApproveOnlyOnce | server/services/TransactionService.js:94-96 | once approved, a request is no longer PENDING, so a second approval is refused and changes nothing |
| Requests.RejectTransaction | server/services/TransactionService.js:123-154 | a missing request is reported. Any stored request, whatever its status, is rejected exactly when the rejected document validates and the write succeeds. It then becomes REJECTED with action REJECTED, and its history is tagged REJECTED. A failure changes nothing |
| Requests.ExpiredRequestGone | server/services/TransactionService.js:89-96 | after the TTL index has removed an expired request, approving or rejecting it reports a missing request, and every pending request listed is still unexpired |
| Requests.RejectAfterCompletion | server/services/TransactionService.js:125-136 | a request already posted to the wallet can still be rejected, and no balance or ledger entry changes back |
| Requests.CompleteTransactionAsWritten | server/services/TransactionService.js:156-193 | as written the operation never succeeds and never changes anything; for an existing request it fails validation on the action type |
| Requests.CompleteTransaction | server/services/TransactionService.js:156-193 | with COMPLETED admitted as an action type, it succeeds exactly when the write succeeds and the request is otherwise valid. The request becomes COMPLETED, with `completedAt` stamped if its status changed, and its history is tagged COMPLETED. No balance or ledger entry moves |
| Requests.PendingOf | server/services/TransactionService.js:240-243 | every PENDING request of the given type, or of any type when none is given, and only those |
| Requests.GetPendingTransactions | server/services/TransactionService.js:239-249 | the page holds the stored PENDING requests of the given type (of any type when none is given) from position (page−1)·limit on: exactly `limit` of them, or the rest when fewer remain. It is non-empty exactly when the page is within the page count |
| Requests.PendingKeepsOrder | server/services/TransactionService.js:244 | on a collection in creation order, the pending requests come oldest first |
| Requests.PendingPageOldestFirst | server/services/TransactionService.js:243-246 | every page of the pending list is oldest first |
| Client.PlaceBet | client/src/App.jsx:133-148 | outside the betting phase nothing happens. Otherwise only the chosen type changes: a press clears a value that is already selected and selects any other value. The bet is sent exactly when the socket is open |
| Client.PressTwiceRestores | client/src/App.jsx:136-139 | two presses of one button restore the selection exactly when that type was empty or held that value |
| Client.DeselectStillSends | client/src/App.jsx:136-147 | clearing a selection still sends the bet to the server |
| Client.ClientNumberColor | client/src/App.jsx:150-155 | the client colours every number exactly as the server does, 5 included |
| Client.JsRem | client/src/App.jsx:159 | the remainder takes the sign of the dividend, is smaller than the divisor in size, and completes the division rounded toward zero |
| Client.FormatTime | client/src/App.jsx:157-161 | for 0 to 5999 seconds the display is exactly five characters `MM:SS`, and it reads back as the number of seconds |
| Client.Pad2Decodes | client/src/App.jsx:160 | two-place zero padding of 0..99 gives two digits that read back as the number |
| Client.ZeroNumberNeverWins | client/src/App.jsx:118-130 | as written, a selected number 0 with 0 drawn shows no win and takes no stake, while the server pays 9x |
| Client.ClientWinningsAsWritten | client/src/App.jsx:111-124 | the winnings as written are the corrected winnings of the selection with a selected 0 dropped |
| Client.ClientChangeAsWritten | client/src/App.jsx:126-130 | the balance move as written is the corrected move of the selection with a selected 0 dropped |
| Client.ClientWinnings | client/src/App.jsx:111-126 | the winnings are the server's payouts summed over the selected bets |
| Client.ClientChange | client/src/App.jsx:126-130 | with something selected, the move is the server's per-bet rule applied once to the summed winnings: the winnings less one stake when they are positive, one stake lost otherwise. With nothing selected nothing moves. A shown loss is never more than one stake |
| Client.SingleSelectionMatchesServer | client/src/App.jsx:126-130 | with one selection the client shows the balance change the server's settlement makes for that bet |
| Client.SeveralSelectionsDiffer | client/src/App.jsx:126-130 | with two losing selections the client takes one stake, while the server settles each bet and takes two |
| Client.ResultShownAsWritten | client/src/App.jsx:28-38 | as the page runs, a result moves the shown balance by nothing, whatever is selected |
| Client.StaleHandlerHidesWin | client/src/App.jsx:49-52 | a winning colour selection shows no change on the running page, where the current selection calls for the payout less the stake |

## Left out

- The drawn digit, `Date.now()` and `Math.random()` are parameters. Fairness of the draw is not modelled.
- Timers and broadcasts are not modelled: `setInterval`, the socket.io and `ws` broadcasts, and the reconnect logic. The legacy loop stops its timer while a phase change settles and restarts it afterwards; the model treats each tick and its phase change as one step.
- WebSocketController's driver is not modelled. It calls `addBet` with two arguments and reads a `gameState` that does not exist.
- The unknown-track `TypeError` of the round engine is not modelled: tracks are a closed enumeration. The engine's `startTime` field is not modelled either.
- Stakes, amounts and balances are integers. Fractional stakes, `NaN` and missing amounts are not modelled.
- The floating-point win rate of `getUserStats` and `getWinRate` is not modelled, and neither is the client's progress bar.
- The legacy loop keeps users in its own collection, whose `balance` field is at the top level with default 1000. It is modelled with the same user record. The default never applies, because the `$inc` upsert starts the field from 0.
- Partial failures are not modelled:
  - a failed balance update in the legacy loop, which is logged and skipped;
  - a failed round-record save in the legacy loop;
  - a failed history write after a request is saved;
  - a failed notification.
  Each write is modelled as succeeding, or as failing as a whole through one flag.
- The request `metadata` merge, the deposit `channel`, `paymentDetails` and the history's IP and user-agent fields are not modelled. They carry no rule.
- `WalletTransaction.userId` is declared as an ObjectId but is given the string user id. Whether that cast succeeds is a property of the database library, and it is not modelled.
- Mongoose never runs a custom validator on an absent value, so a missing UTR number or UPI id passes the schema; the model does the same. Every other check runs on every save, which matches Mongoose for the documents modelled here, whose checked paths are all set.
- The route-level request checks are not modelled: the 12-character UTR number, the amount ranges and the pagination bounds. They run before the services, which are the modelled core; the services accept what the routes pass through.
- LegacyGame.EndBettingPhase: states the settlement only for a well-formed bet book, one whose insertion order lists each player once. The loop's invariant, kept by every operation, provides it.
- Sorting by `createdAt` is modelled by insertion order. `Requests.PendingKeepsOrder` states the result under a creation-ordered collection; ties and clocks that go backwards are not modelled.
- Wallet.GetWalletHistory: requires `page >= 1` and `limit >= 1`. A page below 1 gives a negative skip, and a limit of 0 means "no limit" with an infinite page count; neither is modelled.
- Requests.GetPendingTransactions: requires `page >= 1` and `limit >= 1`, for the same reason.
- Requests.GetPendingTransactions: states the filter and the page size but not the order. The order is stated separately, by `Requests.PendingPageOldestFirst`, under a creation-ordered collection.
- `getUserTransactions` is not modelled. It lies outside the operations covered here.
- `User.updateBalance` is not modelled. It adds to a top-level `balance` that the user schema does not declare.
- The `constants` file is not modelled. Nothing imports it, and its 5-second result phase matches neither engine.
- `authenticateAdmin`, JWT handling, bcrypt hooks and password comparison are not modelled. They are cryptography and request plumbing.
- Notifications, logging and React rendering are not modelled.
- When the TTL index runs is not modelled. The database sweeps expired documents in the background, about once a minute, so a request can outlive its `expiresAt` for a while. `Store.ExpireRequests` is one sweep at a given time, and the operations may be applied before or after it.

## Findings

| source | as written | input that shows it | evidently intended | confidence | as-written member | corrected member |
|---|---|---|---|---|---|---|
| server/services/TransactionService.js:165-173 | `completeTransaction` records the action type "COMPLETED". The schema's enum for that field is APPROVED, REJECTED, PAID (server/models/Transaction.js:59), so the save always fails validation | any stored request id | the request is saved as COMPLETED, with COMPLETED admitted as an action type | high (not executed) | Requests.CompleteTransactionAsWritten | Requests.CompleteTransaction |
| client/src/App.jsx:118 | the client checks the selected number for truthiness, so a selected 0 counts as no selection | number 0 selected, 0 drawn, positive stake: the client shows no win and takes no stake | a selected 0 is a bet like any other number | high (not executed) | Client.ZeroNumberNeverWins | Client.ClientWinnings |
| client/src/App.jsx:28-52 | the socket handlers are set up once, by an effect with no dependencies, so `onmessage` keeps calling the first render's `calculateWinnings`, which reads the first render's empty selection and stake of 10 | select green, stake 10, 1 drawn: the shown balance does not move | the result is scored against the current selection and stake | medium (not executed) | Client.StaleHandlerHidesWin | Client.ClientChange |

=== FILE: admin_auth.dfy ===
/** `requirePermission` of server/middlewares/adminAuth.js: the gate in
    front of every admin route. */
module AdminAuth {
  import opened Wrappers
  import opened Helpers

  datatype Role = SuperAdmin | PaymentAdmin | SupportAdmin

  datatype Permission = ApproveDeposits | ApproveWithdrawals | ViewTransactions | ManageUsers | ViewReports

  datatype Admin = Admin(role: Role, permissions: seq<Permission>)

  /** What the middleware did: how many times it called `next`, and the
      response it sent, if any. */
  datatype Gate = Gate(nextCalls: nat, response: Option<Response>)

  /** A request passes when the admin holds the permission or is a
      SUPER_ADMIN; otherwise it is answered 403 and goes no further. */
  function RequirePermission(permission: Permission, admin: Admin, timestamp: string): (g: Gate)
    ensures g.nextCalls == 1 <==> permission in admin.permissions || admin.role == SuperAdmin
    ensures g.nextCalls <= 1
    ensures g.nextCalls == 1 <==> g.response.None?
    ensures g.response.Some? ==> g.response.value.body.Keys == {"success", "message", "errors", "timestamp"}
    ensures g.response.Some? ==>
      (&& g.response.value.status == 403
       && g.response.value.body["message"] == JStr("Insufficient permissions")
       && g.response.value.body["success"] == JBool(false))
  {
    if permission !in admin.permissions && admin.role != SuperAdmin then
      Gate(0, Some(ErrorResponse("Insufficient permissions", Some(403), None, timestamp)))
    else
      Gate(1, None)
  }

  /** A SUPER_ADMIN passes every gate, even with no permissions at all. */
  lemma SuperAdminPassesAll(permission: Permission, perms: seq<Permission>, timestamp: string)
    ensures RequirePermission(permission, Admin(SuperAdmin, perms), timestamp).nextCalls == 1
  {
  }

  /** Granting an extra permission never closes a gate that was open. */
  lemma GrantingIsMonotone(permission: Permission, extra: Permission, admin: Admin, timestamp: string)
    ensures RequirePermission(permission, admin, timestamp).nextCalls == 1 ==>
      RequirePermission(permission, admin.(permissions := admin.permissions + [extra]), timestamp).nextCalls == 1
  {
  }
}

=== FILE: betbook.dfy ===
/** A JavaScript `Map` keyed by player id, as the bet books use it: the
    entries, and the order in which keys were first inserted, which is the
    order `entries()` visits them in. */
module BetBook {

  datatype Book<V> = Book(order: seq<string>, slips: map<string, V>)

  /** Every key is listed once in the insertion order, and only keys are
      listed. */
  predicate Valid<V>(b: Book<V>) {
    && (forall i, j :: 0 <= i < j < |b.order| ==> b.order[i] != b.order[j])
    && (forall i :: 0 <= i < |b.order| ==> b.order[i] in b.slips)
    && (forall p :: p in b.slips ==> p in b.order)
  }

  /** `new Map()` and `map.clear()`. */
  function Empty<V>(): (b: Book<V>)
    ensures Valid(b) && b.slips == map[] && b.order == []
  {
    Book([], map[])
  }

  /** `map.set(p, v)`: a new key goes to the end of the insertion order, an
      existing key keeps its place. */
  function Put<V>(b: Book<V>, p: string, v: V): (r: Book<V>)
    ensures r.slips == b.slips[p := v]
    ensures p in b.slips ==> r.order == b.order
    ensures p !in b.slips ==> r.order == b.order + [p]
    ensures Valid(b) ==> Valid(r)
  {
    if p in b.slips then Book(b.order, b.slips[p := v]) else Book(b.order + [p], b.slips[p := v])
  }
}

=== FILE: client.dfy ===
/** The betting rules of the browser client, client/src/App.jsx: the
    selection toggle, the bet it sends, its own colour table, the clock
    display and the balance it shows after a result. Amounts are in tenths
    as on the server. */
module Client {
  import opened Wrappers
  import opened Text
  import opened Outcomes
  import opened Payouts

  /** `selectedBets`: at most one selected value per bet type. */
  datatype Selection = Selection(color: Option<Color>, number: Option<int>, size: Option<Size>)

  const NoSelection := Selection(None, None, None)

  /** A button press: a bet type and its value. */
  datatype Pick = PickColor(c: Color) | PickNumber(n: int) | PickSize(s: Size)

  function BetOf(p: Pick, amount: int): Bet {
    match p
    case PickColor(c) => Bet(ColorBet, ColorValue(c), amount)
    case PickNumber(n) => Bet(NumberBet, NumberValue(n), amount)
    case PickSize(s) => Bet(SizeBet, SizeValue(s), amount)
  }

  function Toggle<T(==)>(current: Option<T>, value: T): Option<T> {
    if current == Some(value) then None else Some(value)
  }

  /** What a press does: the new selection and the message sent, if any. */
  datatype Press = Press(selection: Selection, sent: Option<Bet>)

  /** `placeBet`: outside the betting phase nothing happens; otherwise the
      chosen type toggles (the selected value is cleared, any other value is
      selected) and, when the socket is open, the bet is sent, whether the
      press selected or cleared. */
  function PlaceBet(sel: Selection, betting: bool, connected: bool, p: Pick, amount: int): (r: Press)
    ensures !betting ==> r == Press(sel, None)
    ensures betting ==> (r.sent.Some? <==> connected)
    ensures betting && connected ==> r.sent == Some(BetOf(p, amount))
    ensures betting && p.PickColor? ==>
      (&& r.selection == sel.(color := r.selection.color)
       && (r.selection.color == None <==> sel.color == Some(p.c))
       && (r.selection.color != None ==> r.selection.color == Some(p.c)))
    ensures betting && p.PickNumber? ==>
      (&& r.selection == sel.(number := r.selection.number)
       && (r.selection.number == None <==> sel.number == Some(p.n))
       && (r.selection.number != None ==> r.selection.number == Some(p.n)))
    ensures betting && p.PickSize? ==>
      (&& r.selection == sel.(size := r.selection.size)
       && (r.selection.size == None <==> sel.size == Some(p.s))
       && (r.selection.size != None ==> r.selection.size == Some(p.s)))
  {
    if !betting then Press(sel, None)
    else
      var sel' := match p
        case PickColor(c) => sel.(color := Toggle(sel.color, c))
        case PickNumber(n) => sel.(number := Toggle(sel.number, n))
        case PickSize(s) => sel.(size := Toggle(sel.size, s));
      Press(sel', if connected then Some(BetOf(p, amount)) else None)
  }

  /** The type of the pick is unselected or holds the picked value. */
  predicate FreeOrSame(sel: Selection, p: Pick) {
    match p
    case PickColor(c) => sel.color == None || sel.color == Some(c)
    case PickNumber(n) => sel.number == None || sel.number == Some(n)
    case PickSize(z) => sel.size == None || sel.size == Some(z)
  }

  /** Pressing the same button twice restores the selection, unless the
      type held another value, which the two presses clear. */
  lemma PressTwiceRestores(sel: Selection, connected: bool, p: Pick, amount: int)
    ensures FreeOrSame(sel, p) <==>
      PlaceBet(PlaceBet(sel, true, connected, p, amount).selection, true, connected, p, amount).selection == sel
  {
  }

  /** Clearing a selection still sends the bet: the server then holds a bet
      the player no longer sees selected. */
  lemma DeselectStillSends(sel: Selection, p: Pick, amount: int)
    requires p.PickColor? && sel.color == Some(p.c)
    ensures var r := PlaceBet(sel, true, true, p, amount);
      r.selection.color == None && r.sent == Some(BetOf(p, amount))
  {
  }

  /** The client's `getNumberColor`: it colours every number exactly as the
      server does, 5 included. */
  function ClientNumberColor(n: int): (c: Color)
    ensures c == NumberColor(n)
  {
    if n == 0 then Violet
    else if n in [1, 3, 7, 9] then Green
    else if n in [2, 4, 6, 8] then Red
    else Violet
  }

  /** `Math.trunc(a / b)`: division rounded toward zero. */
  function TruncDiv(a: int, b: int): int
    requires b > 0
  {
    if a >= 0 then a / b else -((-a) / b)
  }

  /** `%` of JavaScript: the remainder takes the sign of the dividend and
      completes the division rounded toward zero. */
  function JsRem(a: int, b: int): (r: int)
    requires b > 0
    ensures a >= 0 ==> 0 <= r < b && r == a % b
    ensures a < 0 ==> -b < r <= 0
    ensures a == TruncDiv(a, b) * b + r
  {
    if a >= 0 then a % b
    else
      assert -a == (-a) / b * b + (-a) % b;
      -((-a) % b)
  }

  function Pad2(i: int): string {
    PadStart(IntToString(i), 2, '0')
  }

  /** A clock display: two digits, a colon, two digits. */
  predicate IsClock(r: string) {
    |r| == 5 && r[2] == ':' && forall i :: 0 <= i < 5 && i != 2 ==> IsDigit(r[i])
  }

  /** The number of seconds a clock display stands for. */
  function ClockValue(r: string): nat
    requires IsClock(r)
  {
    DecimalValue(r[..2]) * 60 + DecimalValue(r[3..])
  }

  /** `formatTime`: minutes by floor division, seconds by the JavaScript
      remainder, each padded to two places with zeros. For a divisor of 60,
      floor division is Dafny's `/`. */
  function FormatTime(seconds: int): (r: string)
    ensures 0 <= seconds < 6000 ==> IsClock(r) && ClockValue(r) == seconds
  {
    var r := Pad2(seconds / 60) + ":" + Pad2(JsRem(seconds, 60));
    assert 0 <= seconds < 6000 ==> IsClock(r) && ClockValue(r) == seconds by {
      if 0 <= seconds < 6000 {
        var m, sec := seconds / 60, seconds % 60;
        assert seconds == m * 60 + sec && 0 <= sec < 60 && m < 100;
        assert JsRem(seconds, 60) == sec;
        Pad2Decodes(m);
        Pad2Decodes(sec);
        JoinClock(Pad2(m), Pad2(sec));
      }
    }
    r
  }

  /** Two-place padding of 0..99 reads back as the number. */
  lemma Pad2Decodes(m: nat)
    requires m < 100
    ensures |Pad2(m)| == 2 && (forall i :: 0 <= i < 2 ==> IsDigit(Pad2(m)[i]))
    ensures DecimalValue(Pad2(m)) == m
  {
    var s := NatToDecimal(m);
    DecimalRoundTrip(m);
    if m >= 10 {
      assert |s| == 2 by { DecimalLength(m, 1); DecimalLength(m, 2); }
    } else {
      assert |s| == 1 by { DecimalLength(m, 1); }
      var p := Pad2(m);
      assert p == ['0'] + s;
      assert p[..1] == ['0'];
      assert DecimalValue(p[..1]) == 0;
    }
  }

  /** Two two-digit fields joined by a colon form a clock, and the fields
      can be read back. */
  lemma JoinClock(a: string, b: string)
    requires |a| == 2 && |b| == 2
    requires forall i :: 0 <= i < 2 ==> IsDigit(a[i]) && IsDigit(b[i])
    ensures IsClock(a + ":" + b)
    ensures (a + ":" + b)[..2] == a && (a + ":" + b)[3..] == b
  {
    var r := a + ":" + b;
    assert r[..2] == a;
    assert r[3..] == b;
  }

  /** The selection with a selected number 0 treated as no selection. */
  function WithoutZero(sel: Selection): Selection {
    if sel.number == Some(0) then sel.(number := None) else sel
  }

  /** The client's `calculateWinnings` as written: a selected number is
      checked for truthiness, so a selected 0 counts as no selection. Colour
      and size names are non-empty strings and always truthy. */
  function ClientWinningsAsWritten(sel: Selection, o: Outcome, amount: int): (w: int)
    ensures w == ClientWinnings(WithoutZero(sel), o, amount)
  {
    (if sel.color.Some? && sel.color.value == o.color then amount * ColorRate else 0)
    + (if sel.number.Some? && sel.number.value != 0 && sel.number.value == o.number then amount * NumberRate else 0)
    + (if sel.size.Some? && sel.size.value == o.size then amount * SizeRate else 0)
  }

  /** The balance move the client shows, given its winnings rule: winnings
      less one stake if anything won, otherwise one stake lost if anything
      (truthy) is selected, otherwise nothing. */
  function ClientChangeAsWritten(sel: Selection, o: Outcome, amount: int): (c: int)
    ensures c == ClientChange(WithoutZero(sel), o, amount)
  {
    var w := ClientWinningsAsWritten(sel, o, amount);
    if w > 0 then w - Tenths(amount)
    else if sel.color.Some? || (sel.number.Some? && sel.number.value != 0) || sel.size.Some? then -Tenths(amount)
    else 0
  }

  /** With number 0 selected and 0 drawn, the client as written shows no
      win and takes no stake, where the server pays 9x. */
  lemma ZeroNumberNeverWins(amount: int)
    requires amount > 0
    ensures var sel := Selection(None, Some(0), None);
      var o := GenerateResult(0);
      && ClientWinningsAsWritten(sel, o, amount) == 0
      && ClientChangeAsWritten(sel, o, amount) == 0
      && WinTenths(Bet(NumberBet, NumberValue(0), amount), o) == amount * NumberRate
  {
  }

  /** The selected values as the bets they stand for. */
  function SelectedBets(sel: Selection, amount: int): (r: seq<Bet>)
    ensures |r| <= 3
    ensures forall i :: 0 <= i < |r| ==> r[i].amount == amount
  {
    (if sel.color.Some? then [Bet(ColorBet, ColorValue(sel.color.value), amount)] else [])
    + (if sel.number.Some? then [Bet(NumberBet, NumberValue(sel.number.value), amount)] else [])
    + (if sel.size.Some? then [Bet(SizeBet, SizeValue(sel.size.value), amount)] else [])
  }

  function SumWins(bets: seq<Bet>, o: Outcome): int
    decreases |bets|
  {
    if |bets| == 0 then 0 else WinTenths(bets[0], o) + SumWins(bets[1..], o)
  }

  /** The client's winnings with the number compared against "no selection"
      instead of for truthiness. */
  function ClientWinnings(sel: Selection, o: Outcome, amount: int): (w: int)
    ensures w == SumWins(SelectedBets(sel, amount), o)
  {
    var bets := SelectedBets(sel, amount);
    SumThree(bets, o);
    (if sel.color.Some? && sel.color.value == o.color then amount * ColorRate else 0)
    + (if sel.number.Some? && sel.number.value == o.number then amount * NumberRate else 0)
    + (if sel.size.Some? && sel.size.value == o.size then amount * SizeRate else 0)
  }

  lemma SumThree(bets: seq<Bet>, o: Outcome)
    requires |bets| <= 3
    ensures SumWins(bets, o) == (if |bets| == 0 then 0 else WinTenths(bets[0], o))
      + (if |bets| <= 1 then 0 else WinTenths(bets[1], o))
      + (if |bets| <= 2 then 0 else WinTenths(bets[2], o))
  {
    if |bets| > 0 {
      if |bets| > 1 {
        if |bets| > 2 {
          assert bets[1..][1..][1..] == [];
        }
        assert bets[1..][1..][..] == bets[2..];
      }
    }
  }

  /** The balance move the corrected client shows: the server's per-bet
      rule applied once, to the winnings summed over the selection. */
  function ClientChange(sel: Selection, o: Outcome, amount: int): (c: int)
    ensures amount >= 0 ==> c >= -Tenths(amount)
    ensures sel == NoSelection ==> c == 0
    ensures sel != NoSelection ==> c == BalanceChange(amount, ClientWinnings(sel, o, amount))
    ensures amount > 0 && sel != NoSelection && c == 0 ==> ClientWinnings(sel, o, amount) == Tenths(amount)
  {
    var w := ClientWinnings(sel, o, amount);
    if w > 0 then w - Tenths(amount)
    else if sel != NoSelection then -Tenths(amount)
    else 0
  }

  /** With a single selection the corrected client shows exactly the move
      the server's settlement makes for that bet. */
  lemma SingleSelectionMatchesServer(p: Pick, o: Outcome, amount: int)
    requires amount > 0
    ensures var sel := PlaceBet(NoSelection, true, true, p, amount).selection;
      ClientChange(sel, o, amount) == BalanceChange(amount, WinTenths(BetOf(p, amount), o))
  {
    var sel := PlaceBet(NoSelection, true, true, p, amount).selection;
    assert SelectedBets(sel, amount) == [BetOf(p, amount)];
  }

  /** With two losing selections the client takes one stake, while the
      legacy server settles each bet and takes two. */
  lemma SeveralSelectionsDiffer(amount: int)
    requires amount > 0
    ensures var sel := Selection(Some(Red), Some(1), None);
      var o := GenerateResult(0);
      && ClientChange(sel, o, amount) == -Tenths(amount)
      && BalanceChange(amount, WinTenths(Bet(ColorBet, ColorValue(Red), amount), o))
         + BalanceChange(amount, WinTenths(Bet(NumberBet, NumberValue(1), amount), o)) == -2 * Tenths(amount)
  {
  }

  /** The stake the page starts with: 10 units. */
  const InitialBetAmount := 10

  /** The balance move the page shows when a result arrives, as it runs.
      The socket's message handler is installed once, by the first render's
      effect, and calls that render's `calculateWinnings`; it therefore
      reads the first render's state, no selection and the initial stake,
      whatever the player has selected since. */
  function ResultShownAsWritten(current: Selection, o: Outcome, amount: int): (c: int)
    ensures c == 0
  {
    ClientChangeAsWritten(NoSelection, o, InitialBetAmount)
  }

  /** A winning colour bet: the running page shows no change, where the
      current selection calls for the 2x payout less the stake. */
  lemma StaleHandlerHidesWin(amount: int)
    requires amount > 0
    ensures var sel := Selection(Some(Green), None, None);
      var o := GenerateResult(1);
      && ResultShownAsWritten(sel, o, amount) == 0
      && ClientChange(sel, o, amount) == Tenths(amount) > 0
  {
  }
}

=== FILE: game_service.dfy ===
/** The per-track round engine and bet registry of
    server/services/GameService.js: four independent tracks, each with a
    phase, a countdown, a round counter, a bet book and the last outcome,
    plus one lock map that ties a player to the track of their open bet. */
module GameService {
  import opened Wrappers
  import opened Outcomes
  import opened Payouts
  import opened BetBook

  /** The four speeds: "30s", "1m", "3m" and "5m". */
  datatype Track = T30s | T1m | T3m | T5m

  /** A track's betting duration in seconds. */
  function Duration(t: Track): nat {
    match t
    case T30s => 30
    case T1m => 60
    case T3m => 180
    case T5m => 300
  }

  /** Seconds the result stays on show. */
  const ResultDuration := 3

  datatype Phase = BettingPhase | ResultPhase

  type Bets = Book<seq<Bet>>

  datatype TrackState = TrackState(round: int, phase: Phase, timeRemaining: int, bets: Bets, lastResult: Option<Outcome>)

  /** The whole service: the four tracks and `activePlayers`. */
  datatype Service = Service(t30s: TrackState, t1m: TrackState, t3m: TrackState, t5m: TrackState, active: map<string, Track>)

  function Game(s: Service, t: Track): TrackState {
    match t
    case T30s => s.t30s
    case T1m => s.t1m
    case T3m => s.t3m
    case T5m => s.t5m
  }

  /** Replaces one track's state; nothing else changes. */
  function WithGame(s: Service, t: Track, g: TrackState): (r: Service)
    ensures Game(r, t) == g
    ensures forall u :: u != t ==> Game(r, u) == Game(s, u)
    ensures r.active == s.active
  {
    match t
    case T30s => s.(t30s := g)
    case T1m => s.(t1m := g)
    case T3m => s.(t3m := g)
    case T5m => s.(t5m := g)
  }

  /** The engine's invariant for one track: rounds count from 1, the bet
      book is a well-formed map, every player holds exactly one bet, and
      while the track takes bets every bettor is locked to it. */
  predicate TrackInv(s: Service, t: Track) {
    var g := Game(s, t);
    && g.round >= 1
    && Valid(g.bets)
    && (forall p :: p in g.bets.slips ==> |g.bets.slips[p]| == 1)
    && (g.phase == BettingPhase ==> forall p :: p in g.bets.slips ==> p in s.active && s.active[p] == t)
  }

  predicate Inv(s: Service) {
    forall t :: TrackInv(s, t)
  }

  function FreshTrack(t: Track): TrackState {
    TrackState(1, BettingPhase, Duration(t), Empty(), None)
  }

  /** The constructor: every track at round 1, taking bets, with its full
      duration on the clock, no bets and no result; nobody is locked. */
  function Initial(): (s: Service)
    ensures forall t :: Game(s, t).round == 1 && Game(s, t).phase == BettingPhase
    ensures forall t :: Game(s, t).timeRemaining == Duration(t)
    ensures forall t :: Game(s, t).bets.slips == map[] && Game(s, t).lastResult == None
    ensures s.active == map[]
    ensures Inv(s)
  {
    Service(FreshTrack(T30s), FreshTrack(T1m), FreshTrack(T3m), FreshTrack(T5m), map[])
  }

  /** What `getCurrentState` reports about a track. */
  datatype Snapshot = Snapshot(phase: Phase, timeRemaining: int, round: int, lastResult: Option<Outcome>)

  function GetCurrentState(s: Service, t: Track): Snapshot {
    var g := Game(s, t);
    Snapshot(g.phase, g.timeRemaining, g.round, g.lastResult)
  }

  /** `addBet`'s two exceptions. */
  datatype BetError = ActiveElsewhere(current: Track, wanted: Track) | BettingClosed(track: Track)

  /** `addBet`: first the cross-track lock, then the phase; on success the
      player's entry becomes exactly this one bet and the player is locked
      to the track. A rejected bet changes nothing. */
  function AddBet(s: Service, player: string, t: Track, bet: Bet): (r: Result<Service, BetError>)
    ensures player in s.active && s.active[player] != t ==> r == Err(ActiveElsewhere(s.active[player], t))
    ensures (player !in s.active || s.active[player] == t) && Game(s, t).phase != BettingPhase ==>
      r == Err(BettingClosed(t))
    ensures r.Ok? <==> (player !in s.active || s.active[player] == t) && Game(s, t).phase == BettingPhase
    ensures r.Ok? ==>
      && Game(r.value, t).bets == Put(Game(s, t).bets, player, [bet])
      && Game(r.value, t).bets.slips == Game(s, t).bets.slips[player := [bet]]
      && Game(r.value, t) == Game(s, t).(bets := Game(r.value, t).bets)
      && (forall u :: u != t ==> Game(r.value, u) == Game(s, u))
      && r.value.active == s.active[player := t]
  {
    if player in s.active && s.active[player] != t then
      Err(ActiveElsewhere(s.active[player], t))
    else if Game(s, t).phase != BettingPhase then
      Err(BettingClosed(t))
    else
      var g := Game(s, t);
      Ok(WithGame(s, t, g.(bets := Put(g.bets, player, [bet]))).(active := s.active[player := t]))
  }

  /** An accepted bet keeps the invariant: the lock check ran first, so the
      player held no open bet on another track. */
  lemma AddBetKeepsInv(s: Service, player: string, t: Track, bet: Bet)
    requires Inv(s) && AddBet(s, player, t, bet).Ok?
    ensures Inv(AddBet(s, player, t, bet).value)
  {
    var s' := AddBet(s, player, t, bet).value;
    forall u ensures TrackInv(s', u) {
      assert TrackInv(s, u);
      if u != t && Game(s', u).phase == BettingPhase {
        forall p | p in Game(s', u).bets.slips ensures p in s'.active && s'.active[p] == u {
          assert p in s.active && s.active[p] == u;
        }
      }
    }
  }

  /** Holding a bet: an entry whose list is not empty (`if (bet)`). */
  predicate Holds(slips: map<string, seq<Bet>>, p: string) {
    p in slips && |slips[p]| > 0
  }

  /** The players of `order` who hold a bet, in that order. */
  function Holders(order: seq<string>, slips: map<string, seq<Bet>>): (h: seq<string>)
    ensures forall i :: 0 <= i < |h| ==> h[i] in order && Holds(slips, h[i])
    ensures forall p :: p in order && Holds(slips, p) ==> p in h
    ensures (forall i, j :: 0 <= i < j < |order| ==> order[i] != order[j]) ==>
      forall i, j :: 0 <= i < j < |h| ==> h[i] != h[j]
    decreases |order|
  {
    if |order| == 0 then []
    else if Holds(slips, order[0]) then [order[0]] + Holders(order[1..], slips)
    else Holders(order[1..], slips)
  }

  /** No player is listed twice. */
  predicate Distinct(order: seq<string>) {
    forall i, j :: 0 <= i < j < |order| ==> order[i] != order[j]
  }

  /** Where each holder sits in the book: strictly rising positions, so the
      holders keep the book's insertion order. */
  function HolderIndices(order: seq<string>, slips: map<string, seq<Bet>>): (ix: seq<int>)
    ensures forall k :: 0 <= k < |ix| ==> 0 <= ix[k] < |order|
    ensures forall k, l :: 0 <= k < l < |ix| ==> ix[k] < ix[l]
    decreases |order|
  {
    if |order| == 0 then []
    else
      var rest := HolderIndices(order[1..], slips);
      var shifted := Shift(rest);
      if Holds(slips, order[0]) then [0] + shifted else shifted
  }

  /** Every position one further on. */
  function Shift(s: seq<int>): (r: seq<int>)
    ensures |r| == |s|
    ensures forall k :: 0 <= k < |s| ==> r[k] == s[k] + 1
  {
    if |s| == 0 then [] else [s[0] + 1] + Shift(s[1..])
  }

  lemma {:induction false} HolderIndicesLength(order: seq<string>, slips: map<string, seq<Bet>>)
    ensures |HolderIndices(order, slips)| == |Holders(order, slips)|
    decreases |order|
  {
    if |order| > 0 {
      HolderIndicesLength(order[1..], slips);
    }
  }

  /** The `k`-th holder sits at the `k`-th position. */
  lemma {:induction false} HolderIndexAt(order: seq<string>, slips: map<string, seq<Bet>>, k: int)
    requires 0 <= k < |Holders(order, slips)|
    ensures k < |HolderIndices(order, slips)|
    ensures order[HolderIndices(order, slips)[k]] == Holders(order, slips)[k]
    decreases |order|, 1
  {
    HolderIndicesLength(order, slips);
    if Holds(slips, order[0]) {
      HeadHolderIndexAt(order, slips, k);
    } else {
      var rest := order[1..];
      var ixr := HolderIndices(rest, slips);
      HolderIndicesLength(rest, slips);
      assert Holders(order, slips) == Holders(rest, slips);
      assert HolderIndices(order, slips) == Shift(ixr);
      HolderIndexAt(rest, slips, k);
      assert order[ixr[k] + 1] == rest[ixr[k]];
    }
  }

  /** The same when the book's first player holds a bet. */
  lemma {:induction false} HeadHolderIndexAt(order: seq<string>, slips: map<string, seq<Bet>>, k: int)
    requires 0 <= k < |Holders(order, slips)| && Holds(slips, order[0])
    ensures k < |HolderIndices(order, slips)|
    ensures order[HolderIndices(order, slips)[k]] == Holders(order, slips)[k]
    decreases |order|, 0
  {
    HolderIndicesLength(order, slips);
    var rest := order[1..];
    var ixr := HolderIndices(rest, slips);
    HolderIndicesLength(rest, slips);
    assert Holders(order, slips) == [order[0]] + Holders(rest, slips);
    assert HolderIndices(order, slips) == [0] + Shift(ixr);
    if k > 0 {
      HolderIndexAt(rest, slips, k - 1);
      assert order[ixr[k - 1] + 1] == rest[ixr[k - 1]];
    }
  }

  /** The holders come in book order: of two holders, the earlier one sits
      earlier in the book's insertion order. */
  lemma HoldersKeepBookOrder(order: seq<string>, slips: map<string, seq<Bet>>)
    requires Distinct(order)
    ensures var h := Holders(order, slips);
      forall i, j, a, b :: 0 <= i < j < |h| && 0 <= a < |order| && 0 <= b < |order| && order[a] == h[i] && order[b] == h[j] ==> a < b
  {
    var h := Holders(order, slips);
    var ix := HolderIndices(order, slips);
    forall i, j, a, b | 0 <= i < j < |h| && 0 <= a < |order| && 0 <= b < |order| && order[a] == h[i] && order[b] == h[j]
      ensures a < b
    {
      HolderIndexAt(order, slips, i);
      HolderIndexAt(order, slips, j);
      assert order[ix[i]] == h[i] && order[ix[j]] == h[j];
      assert a == ix[i] && b == ix[j];
    }
  }

  datatype Processed = Processed(records: seq<BetRecord>, active: map<string, Track>)

  /** The records `processBets` builds: one per player holding a bet, in
      the book's order, each settled on the player's first bet. */
  function SettleHolders(order: seq<string>, slips: map<string, seq<Bet>>, o: Outcome): (r: seq<BetRecord>)
    ensures var h := Holders(order, slips);
      && |r| == |h|
      && forall i :: 0 <= i < |h| ==> r[i] == RecordFor(h[i], slips[h[i]][0], o)
  {
    var h := Holders(order, slips);
    seq(|h|, i requires 0 <= i < |h| => RecordFor(h[i], slips[h[i]][0], o))
  }

  /** The locks left after `processBets`: a holder's lock is released only
      when it points at this track. */
  function ReleaseLocks(order: seq<string>, slips: map<string, seq<Bet>>, t: Track,
                        active: map<string, Track>): (r: map<string, Track>)
    ensures forall p :: p in r <==> p in active && !(p in order && Holds(slips, p) && active[p] == t)
    ensures forall p :: p in r ==> r[p] == active[p]
    decreases |order|
  {
    if |order| == 0 then active
    else
      var p := order[0];
      assert forall q :: q in order <==> q == p || q in order[1..];
      var released := if Holds(slips, p) && p in active && active[p] == t then active - {p} else active;
      ReleaseLocks(order[1..], slips, t, released)
  }

  /** `processBets`: the round's records, and the locks it leaves. */
  function ProcessBets(order: seq<string>, slips: map<string, seq<Bet>>, o: Outcome, t: Track,
                       active: map<string, Track>): (r: Processed)
    ensures var h := Holders(order, slips);
      && |r.records| == |h|
      && forall i :: 0 <= i < |h| ==> r.records[i] == RecordFor(h[i], slips[h[i]][0], o)
    ensures forall p :: p in r.active <==> p in active && !(p in order && Holds(slips, p) && active[p] == t)
    ensures forall p :: p in r.active ==> r.active[p] == active[p]
  {
    Processed(SettleHolders(order, slips, o), ReleaseLocks(order, slips, t, active))
  }

  /** What `endBettingPhase` resolves to once the round record is saved. */
  datatype RoundReport = RoundReport(track: Track, round: int, result: Outcome, bets: seq<BetRecord>)

  datatype SaveError = SaveFailed

  /** The state after `endBettingPhase` and what the call resolves to: the
      in-memory changes happen whether or not saving the round succeeds. */
  datatype Ended = Ended(state: Service, report: Result<RoundReport, SaveError>)

  /** `endBettingPhase`: the track shows the drawn result for 3 seconds,
      its bets are settled and their locks released; the round number and
      the bet book stay as they were until the next round starts. */
  function EndBettingPhase(s: Service, t: Track, digit: int, saved: bool): (r: Ended)
    requires 0 <= digit < 10
    ensures var g := Game(s, t);
      Game(r.state, t) == g.(phase := ResultPhase, timeRemaining := ResultDuration, lastResult := Some(GenerateResult(digit)))
    ensures forall u :: u != t ==> Game(r.state, u) == Game(s, u)
    ensures var g := Game(s, t);
      forall p :: p in r.state.active <==> p in s.active && !(p in g.bets.order && Holds(g.bets.slips, p) && s.active[p] == t)
    ensures forall p :: p in r.state.active ==> r.state.active[p] == s.active[p]
    ensures r.report.Ok? <==> saved
    ensures r.report.Ok? ==>
      var g := Game(s, t);
      var h := Holders(g.bets.order, g.bets.slips);
      && r.report.value.track == t && r.report.value.round == g.round
      && r.report.value.result == GenerateResult(digit)
      && |r.report.value.bets| == |h|
      && (forall i :: 0 <= i < |h| ==>
            r.report.value.bets[i] == RecordFor(h[i], g.bets.slips[h[i]][0], GenerateResult(digit)))
      && (forall i :: 0 <= i < |h| ==>
            r.report.value.bets[i].player == h[i] && r.report.value.bets[i].won == (r.report.value.bets[i].winTenths > 0))
    ensures Inv(s) ==> Inv(r.state)
  {
    var g := Game(s, t);
    var result := GenerateResult(digit);
    var processed := ProcessBets(g.bets.order, g.bets.slips, result, t, s.active);
    var s' := WithGame(s, t, g.(phase := ResultPhase, timeRemaining := ResultDuration, lastResult := Some(result)))
              .(active := processed.active);
    assert Inv(s) ==> Inv(s') by {
      if Inv(s) { ClosingKeepsInv(s, s', t); }
    }
    var h := Holders(g.bets.order, g.bets.slips);
    assert forall i :: 0 <= i < |h| ==> processed.records[i].player == h[i];
    Ended(s', if saved then Ok(RoundReport(t, g.round, result, processed.records)) else Err(SaveFailed))
  }

  /** Closing a track's betting keeps the invariant when its round and
      book stay, the other tracks stay, and only locks on this track are
      released. */
  lemma ClosingKeepsInv(s: Service, s': Service, t: Track)
    requires Inv(s)
    requires Game(s', t).phase == ResultPhase
    requires Game(s', t).round == Game(s, t).round && Game(s', t).bets == Game(s, t).bets
    requires forall u :: u != t ==> Game(s', u) == Game(s, u)
    requires forall p :: p in s.active && s.active[p] != t ==> p in s'.active && s'.active[p] == s.active[p]
    ensures Inv(s')
  {
    forall u ensures TrackInv(s', u) {
      assert TrackInv(s, u);
      if u != t && Game(s', u).phase == BettingPhase {
        forall p | p in Game(s', u).bets.slips ensures p in s'.active && s'.active[p] == u {
          assert p in s.active && s.active[p] == u;
        }
      }
    }
  }

  datatype Started = Started(state: Service, snapshot: Snapshot)

  /** `startNewRound`: the round number goes up by exactly one, the track
      takes bets again with its full duration on the clock, and its bet book
      (only its own) is cleared. */
  function StartNewRound(s: Service, t: Track): (r: Started)
    ensures var g := Game(s, t); var g' := Game(r.state, t);
      && g'.round == g.round + 1 && g'.phase == BettingPhase && g'.timeRemaining == Duration(t)
      && g'.bets.slips == map[] && g'.lastResult == g.lastResult
    ensures forall u :: u != t ==> Game(r.state, u) == Game(s, u)
    ensures r.state.active == s.active
    ensures r.snapshot == Snapshot(BettingPhase, Duration(t), Game(s, t).round + 1, Game(s, t).lastResult)
    ensures Inv(s) ==> Inv(r.state)
  {
    var g := Game(s, t);
    var s' := WithGame(s, t, g.(round := g.round + 1, phase := BettingPhase, timeRemaining := Duration(t), bets := Empty()));
    assert Inv(s) ==> Inv(s') by {
      if Inv(s) {
        forall u ensures TrackInv(s', u) {
          assert TrackInv(s, u);
        }
      }
    }
    Started(s', GetCurrentState(s', t))
  }

  datatype Ticked = Ticked(state: Service, remaining: int)

  /** `updateTimer`: one second off the track's clock, with no lower bound;
      nothing else changes. */
  function UpdateTimer(s: Service, t: Track): (r: Ticked)
    ensures r.remaining == Game(s, t).timeRemaining - 1
    ensures Game(r.state, t) == Game(s, t).(timeRemaining := r.remaining)
    ensures forall u :: u != t ==> Game(r.state, u) == Game(s, u)
    ensures r.state.active == s.active
    ensures Inv(s) ==> Inv(r.state)
  {
    var g := Game(s, t);
    var s' := WithGame(s, t, g.(timeRemaining := g.timeRemaining - 1));
    assert Inv(s) ==> Inv(s') by {
      if Inv(s) {
        forall u ensures TrackInv(s', u) {
          assert TrackInv(s, u);
        }
      }
    }
    Ticked(s', g.timeRemaining - 1)
  }

  /** Under the invariant a player never holds bets on two tracks that are
      both taking bets. */
  lemma NoTwoOpenBets(s: Service, p: string, t1: Track, t2: Track)
    requires Inv(s)
    requires Game(s, t1).phase == BettingPhase && p in Game(s, t1).bets.slips
    requires Game(s, t2).phase == BettingPhase && p in Game(s, t2).bets.slips
    ensures t1 == t2
  {
    assert TrackInv(s, t1) && TrackInv(s, t2);
  }

  /** A player with an open bet on one track is refused on any other, with
      the lock error, whatever phase that other track is in. */
  lemma CrossTrackRefused(s: Service, p: string, t1: Track, t2: Track, bet: Bet)
    requires Inv(s)
    requires Game(s, t1).phase == BettingPhase && p in Game(s, t1).bets.slips
    requires t2 != t1
    ensures AddBet(s, p, t2, bet) == Err(ActiveElsewhere(t1, t2))
  {
    assert TrackInv(s, t1);
  }

  /** Round numbers never go down: every operation keeps each track's
      round, and only `startNewRound` adds one, to its own track. */
  lemma RoundsMonotone(s: Service, t: Track, u: Track, p: string, bet: Bet, digit: int, saved: bool)
    requires 0 <= digit < 10
    ensures AddBet(s, p, t, bet).Ok? ==> Game(AddBet(s, p, t, bet).value, u).round == Game(s, u).round
    ensures Game(EndBettingPhase(s, t, digit, saved).state, u).round == Game(s, u).round
    ensures Game(UpdateTimer(s, t).state, u).round == Game(s, u).round
    ensures Game(StartNewRound(s, t).state, u).round == Game(s, u).round + (if u == t then 1 else 0)
  {
  }

  /** Re-betting on the same track replaces the earlier bet. */
  lemma RebetReplaces(s: Service, p: string, t: Track, b1: Bet, b2: Bet)
    requires AddBet(s, p, t, b1).Ok?
    ensures AddBet(AddBet(s, p, t, b1).value, p, t, b2).Ok?
    ensures Game(AddBet(AddBet(s, p, t, b1).value, p, t, b2).value, t).bets.slips[p] == [b2]
  {
  }

  /** What `getCurrentState` reports moves only with the track's clock,
      phase, round and result: an accepted bet changes no track's report,
      and a timer tick changes only its own track's time, by one second. */
  lemma SnapshotIgnoresBets(s: Service, p: string, t: Track, bet: Bet, u: Track)
    ensures AddBet(s, p, t, bet).Ok? ==> GetCurrentState(AddBet(s, p, t, bet).value, u) == GetCurrentState(s, u)
    ensures var g := GetCurrentState(UpdateTimer(s, t).state, u);
      g == GetCurrentState(s, u).(timeRemaining := g.timeRemaining)
      && g.timeRemaining == Game(s, u).timeRemaining - (if u == t then 1 else 0)
  {
  }
}

=== FILE: helpers.dfy ===
/** server/utils/Helpers.js: the response envelopes and the generated
    order and user ids. The clock and `Math.random().toString(36)` are
    parameters. */
module Helpers {
  import opened Wrappers
  import opened Text

  /** The JSON values an envelope carries. */
  datatype Json = JNull | JBool(b: bool) | JNum(n: int) | JStr(s: string) | JArr(items: seq<Json>) | JObj(fields: map<string, Json>)

  datatype Response = Response(status: int, body: map<string, Json>)

  /** `successResponse`; an absent argument takes its default, `{}` for the
      data and 200 for the status. */
  function SuccessResponse(message: string, data: Option<Json>, statusCode: Option<int>, timestamp: string): (r: Response)
    ensures r.status == (if statusCode.Some? then statusCode.value else 200)
    ensures r.body.Keys == {"success", "message", "data", "timestamp"}
    ensures r.body["success"] == JBool(true) && r.body["message"] == JStr(message)
    ensures r.body["data"] == (if data.Some? then data.value else JObj(map[]))
  {
    Response(if statusCode.Some? then statusCode.value else 200,
             map["success" := JBool(true), "message" := JStr(message),
                 "data" := (if data.Some? then data.value else JObj(map[])),
                 "timestamp" := JStr(timestamp)])
  }

  /** `errorResponse`; the status defaults to 500 and the error list to `[]`. */
  function ErrorResponse(message: string, statusCode: Option<int>, errors: Option<Json>, timestamp: string): (r: Response)
    ensures r.status == (if statusCode.Some? then statusCode.value else 500)
    ensures r.body.Keys == {"success", "message", "errors", "timestamp"}
    ensures r.body["success"] == JBool(false) && r.body["message"] == JStr(message)
    ensures r.body["errors"] == (if errors.Some? then errors.value else JArr([]))
  {
    Response(if statusCode.Some? then statusCode.value else 500,
             map["success" := JBool(false), "message" := JStr(message),
                 "errors" := (if errors.Some? then errors.value else JArr([])),
                 "timestamp" := JStr(timestamp)])
  }

  /** A client tells the two envelopes apart by `success` alone. */
  lemma EnvelopesDiffer(m1: string, d: Option<Json>, s1: Option<int>, t1: string, m2: string, s2: Option<int>, e: Option<Json>, t2: string)
    ensures SuccessResponse(m1, d, s1, t1).body["success"] != ErrorResponse(m2, s2, e, t2).body["success"]
    ensures "data" !in ErrorResponse(m2, s2, e, t2).body && "errors" !in SuccessResponse(m1, d, s1, t1).body
  {
  }

  /** What a caller learns from an envelope: the message with the data of a
      success, or the message with the error list of a failure. */
  datatype Reply = Accepted(message: string, data: Json) | Refused(message: string, errors: Json)

  /** Reads an envelope body back; `None` when it is neither envelope. */
  function ReadEnvelope(body: map<string, Json>): Option<Reply> {
    if "success" !in body || "message" !in body || !body["message"].JStr? then None
    else if body["success"] == JBool(true) && "data" in body then Some(Accepted(body["message"].s, body["data"]))
    else if body["success"] == JBool(false) && "errors" in body then Some(Refused(body["message"].s, body["errors"]))
    else None
  }

  /** Both envelopes read back as what they were built from, defaults
      included. */
  lemma EnvelopesReadBack(m1: string, d: Option<Json>, s1: Option<int>, t1: string, m2: string, s2: Option<int>, e: Option<Json>, t2: string)
    ensures ReadEnvelope(SuccessResponse(m1, d, s1, t1).body) == Some(Accepted(m1, if d.Some? then d.value else JObj(map[])))
    ensures ReadEnvelope(ErrorResponse(m2, s2, e, t2).body) == Some(Refused(m2, if e.Some? then e.value else JArr([])))
  {
  }

  /** Characters 2 to 5 of the random base-36 text, upper-cased. */
  function RandomChunk(randomText: string): (r: string)
    ensures |r| == if |randomText| >= 6 then 4 else if |randomText| >= 2 then |randomText| - 2 else 0
    ensures forall i :: 0 <= i < |r| ==> r[i] == UpperChar(randomText[2 + i])
    ensures forall i :: 0 <= i < |r| ==> !('a' <= r[i] <= 'z')
  {
    ToUpper(Slice(randomText, 2, 6))
  }

  /** `generateOrderId`: "DEP" for a deposit and "WTH" for any other type,
      then the last 8 digits of the millisecond clock, then the random
      chunk. */
  function GenerateOrderId(typeName: string, nowMs: nat, randomText: string): (r: string)
    ensures 3 <= |r| <= 3 + 8 + 4
    ensures r[..3] == (if typeName == "DEPOSIT" then "DEP" else "WTH")
    ensures nowMs >= Pow10(7) ==> |r| >= 11 && (forall i :: 3 <= i < 11 ==> IsDigit(r[i]))
    ensures nowMs >= Pow10(7) ==> |r| >= 11 && r[11..] == RandomChunk(randomText)
  {
    var prefix := if typeName == "DEPOSIT" then "DEP" else "WTH";
    var stamp := TakeLast(NatToDecimal(nowMs), 8);
    if nowMs >= Pow10(7) then
      DecimalLength(nowMs, 7);
      assert |stamp| == 8;
      var r := prefix + stamp + RandomChunk(randomText);
      assert r[11..] == RandomChunk(randomText);
      r
    else
      prefix + stamp + RandomChunk(randomText)
  }

  /** `generateUserId`: "USR", the last 6 digits of the clock, the random
      chunk. */
  function GenerateUserId(nowMs: nat, randomText: string): (r: string)
    ensures 3 <= |r| <= 3 + 6 + 4
    ensures r[..3] == "USR"
    ensures nowMs >= Pow10(5) ==> |r| >= 9 && (forall i :: 3 <= i < 9 ==> IsDigit(r[i]))
    ensures nowMs >= Pow10(5) ==> |r| >= 9 && r[9..] == RandomChunk(randomText)
  {
    var stamp := TakeLast(NatToDecimal(nowMs), 6);
    if nowMs >= Pow10(5) then
      DecimalLength(nowMs, 5);
      assert |stamp| == 6;
      "USR" + stamp + RandomChunk(randomText)
    else
      "USR" + stamp + RandomChunk(randomText)
  }

  /** The digits of an order id read back as the clock modulo 10^8, once
      the clock has at least eight digits: the id records the time of day
      it was made, to the millisecond, within a window of about 28 hours. */
  lemma OrderIdStampDecodes(typeName: string, nowMs: nat, randomText: string)
    requires nowMs >= Pow10(7)
    ensures var r := GenerateOrderId(typeName, nowMs, randomText);
      |r| >= 11 && DecimalValue(r[3..11]) == nowMs % Pow10(8)
  {
    var r := GenerateOrderId(typeName, nowMs, randomText);
    DecimalLength(nowMs, 7);
    var stamp := TakeLast(NatToDecimal(nowMs), 8);
    assert r[3..11] == stamp;
    TakeLastDigits(nowMs, 8);
  }

  /** Likewise the user id keeps the clock modulo 10^6. */
  lemma UserIdStampDecodes(nowMs: nat, randomText: string)
    requires nowMs >= Pow10(5)
    ensures var r := GenerateUserId(nowMs, randomText);
      |r| >= 9 && DecimalValue(r[3..9]) == nowMs % Pow10(6)
  {
    var r := GenerateUserId(nowMs, randomText);
    DecimalLength(nowMs, 5);
    var stamp := TakeLast(NatToDecimal(nowMs), 6);
    assert r[3..9] == stamp;
    TakeLastDigits(nowMs, 6);
  }

  /** A deposit's order id never equals a withdrawal's, whatever the clock
      and the random text. */
  lemma OrderIdsKeepTypesApart(t1: nat, t2: nat, r1: string, r2: string)
    ensures GenerateOrderId("DEPOSIT", t1, r1) != GenerateOrderId("WITHDRAWAL", t2, r2)
  {
    var a, b := GenerateOrderId("DEPOSIT", t1, r1), GenerateOrderId("WITHDRAWAL", t2, r2);
    assert a[..3] != b[..3];
  }
}

=== FILE: legacy_game.dfy ===
/** The older single-track loop of server/server.js: one global round, a
    30-second betting phase and a 10-second result phase, bets kept per
    player with at most one per bet type, and balances updated inline at
    settlement. */
module LegacyGame {
  import opened Wrappers
  import opened Outcomes
  import opened Payouts
  import opened BetBook
  import opened UserModel
  import opened Settlement
  import GS = GameService

  const BettingDuration := 30
  const ResultDuration := 10

  datatype State = State(round: int, phase: GS.Phase, timeRemaining: int, bets: Book<seq<Bet>>, lastResult: Option<Outcome>)

  /** The round state together with the users collection it settles into. */
  datatype World = World(game: State, users: UserStore)

  /** The initial `gameState`. */
  function Initial(): (s: State)
    ensures s.round == 1 && s.phase == GS.BettingPhase && s.timeRemaining == BettingDuration
    ensures s.bets.slips == map[] && s.lastResult == None
    ensures Inv(s)
  {
    State(1, GS.BettingPhase, BettingDuration, Empty(), None)
  }

  /** This loop's `calculateWinnings`: three independent checks instead of a
      switch on the type. */
  function LegacyWinTenths(bet: Bet, o: Outcome): (w: int)
    ensures w == WinTenths(bet, o)
  {
    var m := if bet.kind == ColorBet && bet.value == ColorValue(o.color) then ColorRate else 0;
    var m := if bet.kind == NumberBet && bet.value == NumberValue(o.number) then NumberRate else m;
    var m := if bet.kind == SizeBet && bet.value == SizeValue(o.size) then SizeRate else m;
    bet.amount * m
  }

  /** The inline `$inc` of this loop's settlement, written out: the payout
      less the stake when won, minus the stake otherwise, with the stake
      always added to `totalBets` and the payout to `totalWins` only when
      won. It is the service's per-bet update. */
  lemma InlineDeltaIsServiceRule(users: UserStore, player: string, bet: Bet, o: Outcome)
    ensures var win := LegacyWinTenths(bet, o);
      var won := win > 0;
      var r := RecordFor(player, bet, o);
      var u := UpdateUserBalance(users, player, r.amount, r.winTenths)[player];
      && u.balance == Base(users, player).balance + (if won then win - Tenths(bet.amount) else -Tenths(bet.amount))
      && u.totalBets == Base(users, player).totalBets + Tenths(bet.amount)
      && u.totalWins == Base(users, player).totalWins + (if won then win else 0)
  {
  }

  /** `findIndex` of the first bet of a type, -1 when there is none. */
  function IndexOfKind(bets: seq<Bet>, kind: BetKind): (i: int)
    ensures -1 <= i < |bets|
    ensures i >= 0 ==> bets[i].kind == kind && forall j :: 0 <= j < i ==> bets[j].kind != kind
    ensures i == -1 ==> forall j :: 0 <= j < |bets| ==> bets[j].kind != kind
    decreases |bets|
  {
    if |bets| == 0 then -1
    else if bets[0].kind == kind then 0
    else
      var i := IndexOfKind(bets[1..], kind);
      if i == -1 then -1 else i + 1
  }

  /** At most one bet of each type. */
  predicate OnePerKind(bets: seq<Bet>) {
    forall i, j :: 0 <= i < j < |bets| ==> bets[i].kind != bets[j].kind
  }

  /** The `placeBet` list update: a bet of a type already present takes its
      place, otherwise it is appended. Bets of other types are untouched. */
  function Upsert(bets: seq<Bet>, bet: Bet): (r: seq<Bet>)
    ensures bet in r
    ensures forall j :: 0 <= j < |bets| && bets[j].kind != bet.kind ==> bets[j] in r
    ensures forall j :: 0 <= j < |r| && r[j].kind != bet.kind ==> r[j] in bets
    ensures OnePerKind(bets) ==> OnePerKind(r) && forall j :: 0 <= j < |r| && r[j].kind == bet.kind ==> r[j] == bet
    ensures |r| == |bets| || |r| == |bets| + 1
  {
    var i := IndexOfKind(bets, bet.kind);
    if i >= 0 then
      var r := bets[i := bet];
      assert r[i] == bet;
      assert forall j :: 0 <= j < |bets| && j != i ==> r[j] == bets[j];
      r
    else
      var r := bets + [bet];
      assert r[|bets|] == bet;
      assert forall j :: 0 <= j < |bets| ==> r[j] == bets[j];
      r
  }

  /** Two bets of different unknown types are kept side by side, and a round
      settles both, taking both stakes. */
  lemma UnknownTypesKeptApart(p: string, a: string, b: string, x: int, y: int, o: Outcome)
    requires a != b
    ensures var first := Bet(OtherKind(a), OtherValue, x);
      var second := Bet(OtherKind(b), OtherValue, y);
      var bets := Upsert([first], second);
      && bets == [first, second]
      && Total(PlayerRecords(p, bets, o), p, ChangeOf) == -Tenths(x) - Tenths(y)
      && Total(PlayerRecords(p, bets, o), p, StakeOf) == Tenths(x) + Tenths(y)
  {
    var first := Bet(OtherKind(a), OtherValue, x);
    var second := Bet(OtherKind(b), OtherValue, y);
    var rs := PlayerRecords(p, [first, second], o);
    assert rs[0] == RecordFor(p, first, o) && rs[1] == RecordFor(p, second, o);
    assert rs[0].winTenths == 0 && rs[1].winTenths == 0;
    assert rs[..1][..0] == [];
    assert Total(rs[..1], p, ChangeOf) == -Tenths(x);
    assert Total(rs[..1], p, StakeOf) == Tenths(x);
  }

  function BetsOf(s: State, player: string): seq<Bet> {
    if player in s.bets.slips then s.bets.slips[player] else []
  }

  /** The `placeBet` message: dropped without a word outside the betting
      phase; otherwise the player's list gets the bet by `Upsert`. The
      player id is a parameter (the socket's id, or a fresh random one). */
  function PlaceBet(s: State, player: string, bet: Bet): (r: State)
    ensures s.phase != GS.BettingPhase ==> r == s
    ensures s.phase == GS.BettingPhase ==>
      r == s.(bets := r.bets) && r.bets.slips == s.bets.slips[player := Upsert(BetsOf(s, player), bet)]
    ensures Inv(s) ==> Inv(r)
  {
    if s.phase == GS.BettingPhase then
      s.(bets := Put(s.bets, player, Upsert(BetsOf(s, player), bet)))
    else s
  }

  /** The records of one player's bets, in list order. */
  function PlayerRecords(p: string, bets: seq<Bet>, o: Outcome): (r: seq<BetRecord>)
    ensures |r| == |bets|
    ensures forall i :: 0 <= i < |r| ==> r[i] == RecordFor(p, bets[i], o)
  {
    seq(|bets|, i requires 0 <= i < |bets| => RecordFor(p, bets[i], o))
  }

  /** The settlement order: every bet of every player, players in the
      book's order. */
  function SettleRecords(order: seq<string>, slips: map<string, seq<Bet>>, o: Outcome): seq<BetRecord>
    decreases |order|
  {
    if |order| == 0 then []
    else
      var p := order[0];
      (if p in slips then PlayerRecords(p, slips[p], o) else []) + SettleRecords(order[1..], slips, o)
  }

  /** The players a round settles: those holding at least one bet. */
  function Bettors(slips: map<string, seq<Bet>>): set<string> {
    set p | p in slips && |slips[p]| > 0
  }

  /** `after` is `before` with one round settled: every bettor's balance,
      `totalBets` and `totalWins` move by the sums of the increments of
      that player's bets (from zero for a new player), everybody else keeps
      their record, and the only new users are bettors. */
  predicate SettledRound(before: UserStore, after: UserStore, slips: map<string, seq<Bet>>, o: Outcome) {
    && after.Keys == before.Keys + Bettors(slips)
    && (forall p :: p in before && p !in Bettors(slips) ==> after[p] == before[p])
    && (forall p :: p in slips ==> Base(after, p) == Settled(before, PlayerRecords(p, slips[p], o), p))
  }

  /** `endBettingPhase`: the result shows for 10 seconds, and every bet of
      every player is settled into the users collection; the bets stay
      until the next round. Failures of the database writes are only logged
      and are not modelled. */
  function EndBettingPhase(w: World, digit: int): (r: World)
    requires 0 <= digit < 10
    ensures r.game == w.game.(phase := GS.ResultPhase, timeRemaining := ResultDuration,
                              lastResult := Some(GenerateResult(digit)))
    ensures Valid(w.game.bets) ==> SettledRound(w.users, r.users, w.game.bets.slips, GenerateResult(digit))
    ensures forall p :: p in w.users ==> p in r.users
  {
    var o := GenerateResult(digit);
    var records := SettleRecords(w.game.bets.order, w.game.bets.slips, o);
    var users' := ProcessWinnings(w.users, records);
    assert Valid(w.game.bets) ==> SettledRound(w.users, users', w.game.bets.slips, o) by {
      if Valid(w.game.bets) { LegacySettles(w.users, w.game.bets, o); }
    }
    World(w.game.(phase := GS.ResultPhase, timeRemaining := ResultDuration, lastResult := Some(o)), users')
  }

  /** Settling the records of a well-formed book settles the round. */
  lemma LegacySettles(users: UserStore, bets: Book<seq<Bet>>, o: Outcome)
    requires Valid(bets)
    ensures SettledRound(users, ProcessWinnings(users, SettleRecords(bets.order, bets.slips, o)), bets.slips, o)
  {
    var records := SettleRecords(bets.order, bets.slips, o);
    var after := ProcessWinnings(users, records);
    SettlePlayers(bets.order, bets.slips, o);
    assert Players(records) == Bettors(bets.slips);
    forall p | p in bets.slips
      ensures Base(after, p) == Settled(users, PlayerRecords(p, bets.slips[p], o), p)
    {
      BettorSettled(users, bets, o, p);
    }
    forall p | p in users && p !in Bettors(bets.slips)
      ensures after[p] == users[p]
    {
      NonBettorKept(users, records, p);
    }
  }

  /** A user named in no record keeps their record. */
  lemma NonBettorKept(users: UserStore, records: seq<BetRecord>, p: string)
    requires p in users && p !in Players(records)
    ensures ProcessWinnings(users, records)[p] == users[p]
  {
    ProcessWinningsBase(users, records, p);
    ZeroTotals(records, p);
  }

  /** A bettor ends the round settled by their own bets alone. */
  lemma BettorSettled(users: UserStore, bets: Book<seq<Bet>>, o: Outcome, p: string)
    requires Valid(bets) && p in bets.slips
    ensures Base(ProcessWinnings(users, SettleRecords(bets.order, bets.slips, o)), p)
      == Settled(users, PlayerRecords(p, bets.slips[p], o), p)
  {
    var records := SettleRecords(bets.order, bets.slips, o);
    var mine := PlayerRecords(p, bets.slips[p], o);
    assert p in bets.order;
    ProcessWinningsBase(users, records, p);
    SettledTotal(bets.order, bets.slips, o, p, ChangeOf);
    SettledTotal(bets.order, bets.slips, o, p, StakeOf);
    SettledTotal(bets.order, bets.slips, o, p, WinOf);
    assert Settled(users, records, p) == Settled(users, mine, p);
  }

  /** The players named in the settlement records are the players of the
      book holding at least one bet. */
  lemma {:induction false} SettlePlayers(order: seq<string>, slips: map<string, seq<Bet>>, o: Outcome)
    ensures forall x :: x in Players(SettleRecords(order, slips, o)) <==> x in order && x in slips && |slips[x]| > 0
    decreases |order|
  {
    if |order| > 0 {
      var q := order[0];
      var mine := if q in slips then PlayerRecords(q, slips[q], o) else [];
      var rest := SettleRecords(order[1..], slips, o);
      SettlePlayers(order[1..], slips, o);
      PlayersAppend(mine, rest);
      assert order == [q] + order[1..];
      assert forall x :: x in Players(mine) <==> x == q && q in slips && |slips[q]| > 0 by {
        if q in slips && |slips[q]| > 0 {
          assert mine[0].player == q;
        }
      }
    }
  }

  lemma PlayersAppend(a: seq<BetRecord>, b: seq<BetRecord>)
    ensures Players(a + b) == Players(a) + Players(b)
  {
    forall x | x in Players(a + b) ensures x in Players(a) + Players(b) {
      var i :| 0 <= i < |a + b| && (a + b)[i].player == x;
      if i >= |a| { assert b[i - |a|] == (a + b)[i]; }
    }
    forall x | x in Players(a) + Players(b) ensures x in Players(a + b) {
      if x in Players(a) {
        var i :| 0 <= i < |a| && a[i].player == x;
        assert (a + b)[i] == a[i];
      } else {
        var i :| 0 <= i < |b| && b[i].player == x;
        assert (a + b)[|a| + i] == b[i];
      }
    }
  }

  /** In the settlement records a player's share is exactly the records
      of their own bets. */
  lemma {:induction false} SettledTotal(order: seq<string>, slips: map<string, seq<Bet>>, o: Outcome, p: string, f: BetRecord -> int)
    requires forall i, j :: 0 <= i < j < |order| ==> order[i] != order[j]
    ensures Total(SettleRecords(order, slips, o), p, f) ==
      if p in order && p in slips then Total(PlayerRecords(p, slips[p], o), p, f) else 0
    decreases |order|
  {
    if |order| > 0 {
      var q := order[0];
      var mine := if q in slips then PlayerRecords(q, slips[q], o) else [];
      SettledTotal(order[1..], slips, o, p, f);
      TotalAppend(mine, SettleRecords(order[1..], slips, o), p, f);
      assert order == [q] + order[1..];
      if q != p {
        OthersTotalZero(mine, p, f);
      } else {
        assert p !in order[1..];
        if q !in slips {
          assert Total(mine, p, f) == 0;
        }
      }
    }
  }

  lemma {:induction false} OthersTotalZero(records: seq<BetRecord>, p: string, f: BetRecord -> int)
    requires forall i :: 0 <= i < |records| ==> records[i].player != p
    ensures Total(records, p, f) == 0
    decreases |records|
  {
    if |records| > 0 {
      OthersTotalZero(records[..|records| - 1], p, f);
    }
  }

  /** `startNewRound`: next round, taking bets for 30 seconds, no bets. */
  function StartNewRound(s: State): (r: State)
    ensures r.round == s.round + 1 && r.phase == GS.BettingPhase && r.timeRemaining == BettingDuration
    ensures r.bets.slips == map[] && r.lastResult == s.lastResult
  {
    s.(round := s.round + 1, phase := GS.BettingPhase, timeRemaining := BettingDuration, bets := Empty())
  }

  /** One second of `startGameTimer`: the clock drops by one, and only when
      it reaches zero does the phase change, betting to result and result
      to a new round. `digit` is the draw used if the betting phase ends. */
  function Tick(w: World, digit: int): (r: World)
    requires 0 <= digit < 10
    ensures w.game.timeRemaining - 1 > 0 ==>
      r == w.(game := w.game.(timeRemaining := w.game.timeRemaining - 1))
    ensures w.game.timeRemaining - 1 <= 0 && w.game.phase == GS.BettingPhase ==>
      && r.game.phase == GS.ResultPhase && r.game.timeRemaining == ResultDuration && r.game.round == w.game.round
      && r.game.lastResult == Some(GenerateResult(digit)) && r.game.bets == w.game.bets
      && (Valid(w.game.bets) ==> SettledRound(w.users, r.users, w.game.bets.slips, GenerateResult(digit)))
    ensures w.game.timeRemaining - 1 <= 0 && w.game.phase == GS.ResultPhase ==>
      r.game.phase == GS.BettingPhase && r.game.timeRemaining == BettingDuration
      && r.game.round == w.game.round + 1 && r.game.bets.slips == map[] && r.users == w.users
    ensures Inv(w.game) ==> Inv(r.game)
  {
    var g := w.game.(timeRemaining := w.game.timeRemaining - 1);
    if g.timeRemaining <= 0 then
      if g.phase == GS.BettingPhase then EndBettingPhase(w.(game := g), digit)
      else World(StartNewRound(g), w.users)
    else w.(game := g)
  }

  /** One tick per draw, in turn. */
  function Run(w: World, digits: seq<int>): World
    requires forall i :: 0 <= i < |digits| ==> 0 <= digits[i] < 10
    decreases |digits|
  {
    if |digits| == 0 then w else Run(Tick(w, digits[0]), digits[1..])
  }

  /** The loop's invariant: rounds count from 1, the clock is positive
      between ticks, the book is well formed and holds at most one bet per
      type per player. */
  predicate Inv(s: State) {
    && s.round >= 1
    && s.timeRemaining >= 1
    && Valid(s.bets)
    && forall p :: p in s.bets.slips ==> OnePerKind(s.bets.slips[p])
  }

  /** A betting phase with `k` seconds left ends after exactly `k` ticks,
      showing the last draw for 10 seconds in the same round. */
  lemma {:induction false} BettingLastsItsClock(w: World, digits: seq<int>)
    requires w.game.phase == GS.BettingPhase && |digits| == w.game.timeRemaining >= 1
    requires forall i :: 0 <= i < |digits| ==> 0 <= digits[i] < 10
    ensures Run(w, digits).game.phase == GS.ResultPhase
    ensures Run(w, digits).game.timeRemaining == ResultDuration
    ensures Run(w, digits).game.round == w.game.round
    ensures Run(w, digits).game.lastResult == Some(GenerateResult(digits[|digits| - 1]))
    decreases |digits|
  {
    if |digits| > 1 {
      var w' := Tick(w, digits[0]);
      BettingLastsItsClock(w', digits[1..]);
    } else {
      assert Run(Tick(w, digits[0]), []) == Tick(w, digits[0]);
    }
  }

  /** A result phase with `k` seconds left gives way to the next round after
      exactly `k` ticks, with an empty book and the users untouched. */
  lemma {:induction false} ResultLastsItsClock(w: World, digits: seq<int>)
    requires w.game.phase == GS.ResultPhase && |digits| == w.game.timeRemaining >= 1
    requires forall i :: 0 <= i < |digits| ==> 0 <= digits[i] < 10
    ensures Run(w, digits).game.phase == GS.BettingPhase
    ensures Run(w, digits).game.timeRemaining == BettingDuration
    ensures Run(w, digits).game.round == w.game.round + 1
    ensures Run(w, digits).game.bets.slips == map[]
    ensures Run(w, digits).users == w.users
    decreases |digits|
  {
    if |digits| > 1 {
      var w' := Tick(w, digits[0]);
      ResultLastsItsClock(w', digits[1..]);
    } else {
      assert Run(Tick(w, digits[0]), []) == Tick(w, digits[0]);
    }
  }
}

=== FILE: outcomes.dfy ===
/** Outcome derivation of server/utils/gameUtils.js: a drawn number fixes the
    round's colour and size. */
module Outcomes {

  datatype Color = Violet | Green | Red
  datatype Size = Big | Small

  /** A round's result: the drawn number and the two attributes derived
      from it. */
  datatype Outcome = Outcome(number: int, color: Color, size: Size)

  /** `getNumberColor`: 0 is violet, 1/3/7/9 green, 2/4/6/8 red, and every
      other value (5 among them) falls through to violet. */
  function NumberColor(n: int): (c: Color)
    ensures c == Green <==> n == 1 || n == 3 || n == 7 || n == 9
    ensures c == Red <==> n == 2 || n == 4 || n == 6 || n == 8
  {
    if n == 0 then Violet
    else if n in {1, 3, 7, 9} then Green
    else if n in {2, 4, 6, 8} then Red
    else Violet
  }

  /** `getNumberSize`: big from 5 upwards, small below. */
  function NumberSize(n: int): (s: Size)
    ensures s == Big <==> n >= 5
  {
    if n >= 5 then Big else Small
  }

  /** `generateGameResult` for a drawn number (the draw itself is a parameter). */
  function GenerateResult(digit: int): (o: Outcome)
    requires 0 <= digit < 10
    ensures o.number == digit && Derived(o)
  {
    Outcome(digit, NumberColor(digit), NumberSize(digit))
  }

  /** An outcome whose colour and size are the ones its number determines. */
  predicate Derived(o: Outcome) {
    o.color == NumberColor(o.number) && o.size == NumberSize(o.number)
  }

  /** Away from 0 and 5, the colour of a digit is its parity: odd digits are
      green and even ones red. */
  lemma ColorIsParity(d: int)
    requires 0 < d < 10 && d != 5
    ensures NumberColor(d) == if d % 2 == 1 then Green else Red
  {
  }

  /** Violet digits are exactly 0 and 5; 0 is violet and small, 5 violet and
      big, so every digit gets one colour and one size. */
  lemma VioletDigits(d: int)
    requires 0 <= d < 10
    ensures NumberColor(d) == Violet <==> d == 0 || d == 5
    ensures d == 0 ==> GenerateResult(d) == Outcome(0, Violet, Small)
    ensures d == 5 ==> GenerateResult(d) == Outcome(5, Violet, Big)
  {
  }

  /** Out of 0..9 the colour is violet. */
  lemma OutOfRangeIsViolet(n: int)
    requires n < 0 || n > 9
    ensures NumberColor(n) == Violet
  {
  }
}

=== FILE: payouts.dfy ===
/** The payout table and the per-bet balance rule.

    Money is an `int` counting tenths of a currency unit, so the 1.8x size
    payout is exact; a stake is a whole number of units. */
module Payouts {
  import opened Outcomes

  /** A bet's `type`: "color", "number", "size", or any other string, kept
      so that two unknown types stay as distinct as their strings. The
      three known strings are written with their own constructors, never as
      `OtherKind`. */
  datatype BetKind = ColorBet | NumberBet | SizeBet | OtherKind(name: string)

  /** A bet's `value`, compared with `===`: a colour name, a size name, an
      integer, or anything else (which never equals an outcome attribute). */
  datatype BetValue = ColorValue(color: Color) | NumberValue(number: int) | SizeValue(size: Size) | OtherValue

  datatype Bet = Bet(kind: BetKind, value: BetValue, amount: int)

  /** A stake of whole units, in tenths. */
  function Tenths(units: int): int {
    10 * units
  }

  /** Multipliers in tenths: 2x, 9x and 1.8x. */
  const ColorRate := 20
  const NumberRate := 90
  const SizeRate := 18

  /** The bet's value names the attribute its kind looks at. */
  predicate Matches(bet: Bet, o: Outcome) {
    match bet.kind
    case ColorBet => bet.value == ColorValue(o.color)
    case NumberBet => bet.value == NumberValue(o.number)
    case SizeBet => bet.value == SizeValue(o.size)
    case OtherKind(_) => false
  }

  function Rate(kind: BetKind): int {
    match kind
    case ColorBet => ColorRate
    case NumberBet => NumberRate
    case SizeBet => SizeRate
    case OtherKind(_) => 0
  }

  /** `calculateWinnings` of server/services/GameService.js, in tenths: the
      stake times the kind's multiplier on a match, nothing otherwise. */
  function WinTenths(bet: Bet, o: Outcome): (w: int)
    ensures Matches(bet, o) ==> w == bet.amount * Rate(bet.kind)
    ensures !Matches(bet, o) ==> w == 0
    ensures bet.amount > 0 ==> (w > 0 <==> Matches(bet, o))
  {
    var multiplier :=
      match bet.kind
      case ColorBet => if bet.value == ColorValue(o.color) then ColorRate else 0
      case NumberBet => if bet.value == NumberValue(o.number) then NumberRate else 0
      case SizeBet => if bet.value == SizeValue(o.size) then SizeRate else 0
      case OtherKind(_) => 0;
    bet.amount * multiplier
  }

  /** One settled bet as the engines record it. */
  datatype BetRecord = BetRecord(player: string, kind: BetKind, value: BetValue, amount: int, won: bool, winTenths: int)

  /** The players some record names. */
  function Players(records: seq<BetRecord>): set<string> {
    set i | 0 <= i < |records| :: records[i].player
  }

  /** The record of one bet: `won` when the payout is positive, and a zero
      payout recorded for a lost bet. */
  function RecordFor(player: string, bet: Bet, o: Outcome): (r: BetRecord)
    ensures r.player == player && r.kind == bet.kind && r.value == bet.value && r.amount == bet.amount
    ensures r.won <==> WinTenths(bet, o) > 0
    ensures r.winTenths >= 0
    ensures r.won ==> r.winTenths == WinTenths(bet, o)
    ensures !r.won ==> r.winTenths == 0
  {
    var w := WinTenths(bet, o);
    BetRecord(player, bet.kind, bet.value, bet.amount, w > 0, if w > 0 then w else 0)
  }

  /** `updateUserBalance`'s balance change: the payout less the stake on a
      win, minus the stake otherwise. */
  function BalanceChange(stake: int, winTenths: int): (d: int)
    ensures d + Tenths(stake) == (if winTenths > 0 then winTenths else 0)
  {
    if winTenths > 0 then winTenths - Tenths(stake) else -Tenths(stake)
  }

  /** The paid-out part of a recorded win: positive payouts only. */
  function PaidOut(winTenths: int): (p: int)
    ensures p >= 0
    ensures winTenths > 0 ==> p == winTenths
    ensures winTenths <= 0 ==> p == 0
  {
    if winTenths > 0 then winTenths else 0
  }

  /** Settling a positive stake changes the balance by at least minus the
      stake: a bet never costs more than it put at risk. */
  lemma LossBoundedByStake(bet: Bet, o: Outcome)
    requires bet.amount > 0
    ensures BalanceChange(bet.amount, WinTenths(bet, o)) >= -Tenths(bet.amount)
    ensures BalanceChange(bet.amount, WinTenths(bet, o)) < 0 <==> !Matches(bet, o)
  {
  }
}

=== FILE: requests.dfy ===
/** server/services/TransactionService.js: a user's deposit and withdrawal
    requests and the admin's approve, reject and complete actions on them.
    None of these moves money; only the wallet posting does. Admin
    notifications are console logging and are not modelled. */
module Requests {
  import opened Wrappers
  import opened Text
  import opened UserModel
  import opened Settlement
  import opened Transactions
  import opened Store
  import opened Helpers

  datatype RequestError =
    | UserAbsent
    | TxnAbsent
    | BalanceTooLow
    | NotPending
    | ValidationFailed(errors: set<ValidationError>)
    | DuplicateKey
    | WriteFailure

  /** The database after the operation, and what the caller receives. */
  datatype Step = Step(db: Db, result: Result<Transaction, RequestError>)

  /** `addToHistory`: a snapshot of the request with the balance it was
      made at as both the before and the after balance. The tag takes the
      schema default, PROCESSING_PAYMENT. */
  function AddToHistory(t: Transaction, description: string, currentBalance: int): (h: HistoryEntry)
    ensures h.balanceBefore == currentBalance && h.balanceAfter == currentBalance
    ensures h.txnId == t.id && h.userId == t.userId && h.orderId == t.orderId
    ensures h.kind == t.kind && h.amount == t.amount && h.status == t.status
    ensures h.tag == ProcessingPayment && h.adminRemarks == None
  {
    HistoryEntry(t.id, t.userId, t.orderId, t.kind, t.amount, t.status, ProcessingPayment, description,
                 currentBalance, currentBalance, t.utrNumber, t.upiId, None)
  }

  /** A unique index would refuse the new document: its id or order id is
      taken. */
  predicate Clash(txns: seq<Transaction>, t: Transaction) {
    exists k :: 0 <= k < |txns| && (txns[k].id == t.id || txns[k].orderId == t.orderId)
  }

  /** No two stored requests share an id or an order id. */
  predicate KeysUnique(txns: seq<Transaction>) {
    forall a, b :: 0 <= a < b < |txns| ==> txns[a].id != txns[b].id && txns[a].orderId != txns[b].orderId
  }

  /** The request a user submits, before it is saved. */
  function Draft(userId: string, kind: TxnType, amount: int, utr: Option<string>, upi: Option<string>,
                 id: string, now: nat, randomText: string): Transaction {
    NewTransaction(id, GenerateOrderId(TypeName(kind), now, randomText), userId, kind, amount, utr, upi, now)
  }

  /** Saving a new request and its history line; `balance` is the user's
      balance at the time. */
  function Submit(db: Db, t: Transaction, description: string, balance: int, writeOk: bool): (r: Step)
    requires t.status == Pending
    ensures r.result.Err? ==> r.db == db
    ensures r.result.Ok? <==> Errors(t, SchemaActions) == {} && !Clash(db.txns, t) && writeOk
    ensures r.result.Ok? ==> r.result.value == t && r.db == db.(txns := db.txns + [t], history := db.history + [AddToHistory(t, description, balance)])
  {
    var e := Errors(t, SchemaActions);
    if e != {} then Step(db, Err(ValidationFailed(e)))
    else if Clash(db.txns, t) then Step(db, Err(DuplicateKey))
    else
      match Save(None, t, t.createdAt, SchemaActions, writeOk)
      case Err(_) => Step(db, Err(WriteFailure))
      case Ok(saved) =>
        PreSaveStampsOnlyOnChange(None, t, t.createdAt);
        Step(db.(txns := db.txns + [saved], history := db.history + [AddToHistory(saved, description, balance)]), Ok(saved))
  }

  /** `createDeposit`: the user must exist; the request is saved PENDING
      with a fresh order id and a history line at the current balance. The
      wallet is not touched. */
  function CreateDeposit(db: Db, userId: string, amount: int, utr: Option<string>,
                         id: string, now: nat, randomText: string, writeOk: bool): (r: Step)
    ensures r.result.Err? ==> r.db == db
    ensures userId !in db.users ==> r.result == Err(UserAbsent)
    ensures r.result.Ok? ==>
      && userId in db.users
      && r.db.users == db.users && r.db.ledger == db.ledger
      && r.db.txns == db.txns + [r.result.value]
      && r.db.history == db.history + [AddToHistory(r.result.value, "Deposit request submitted", db.users[userId].balance)]
      && r.result.value.status == Pending && r.result.value.kind == Deposit
      && r.result.value.amount == amount && r.result.value.userId == userId
      && r.result.value.orderId == GenerateOrderId("DEPOSIT", now, randomText)
    ensures r.result.Ok? <==>
      && userId in db.users
      && (utr.None? || |Trim(utr.value)| > 0) && |userId| > 0
      && !Clash(db.txns, Draft(userId, Deposit, amount, utr, None, id, now, randomText)) && writeOk
  {
    if userId !in db.users then Step(db, Err(UserAbsent))
    else
      Submit(db, Draft(userId, Deposit, amount, utr, None, id, now, randomText),
             "Deposit request submitted", db.users[userId].balance, writeOk)
  }

  /** `createWithdrawal`: as a deposit, but refused when the balance is
      below the amount; a balance equal to the amount is enough. */
  function CreateWithdrawal(db: Db, userId: string, amount: int, upi: Option<string>,
                            id: string, now: nat, randomText: string, writeOk: bool): (r: Step)
    ensures r.result.Err? ==> r.db == db
    ensures userId !in db.users ==> r.result == Err(UserAbsent)
    ensures userId in db.users && db.users[userId].balance < amount ==> r.result == Err(BalanceTooLow)
    ensures r.result.Ok? ==>
      && userId in db.users && db.users[userId].balance >= amount
      && r.db.users == db.users && r.db.ledger == db.ledger
      && r.db.txns == db.txns + [r.result.value]
      && r.db.history == db.history + [AddToHistory(r.result.value, "Withdrawal request submitted", db.users[userId].balance)]
      && r.result.value.status == Pending && r.result.value.kind == Withdrawal
      && r.result.value.amount == amount && r.result.value.userId == userId
      && r.result.value.orderId == GenerateOrderId("WITHDRAWAL", now, randomText)
    ensures r.result.Ok? <==>
      && userId in db.users && db.users[userId].balance >= amount
      && (upi.None? || |Trim(upi.value)| > 0) && |userId| > 0
      && !Clash(db.txns, Draft(userId, Withdrawal, amount, None, upi, id, now, randomText)) && writeOk
  {
    if userId !in db.users then Step(db, Err(UserAbsent))
    else if db.users[userId].balance < amount then Step(db, Err(BalanceTooLow))
    else
      Submit(db, Draft(userId, Withdrawal, amount, None, upi, id, now, randomText),
             "Withdrawal request submitted", db.users[userId].balance, writeOk)
  }

  /** New requests never break the uniqueness of ids and order ids. */
  lemma CreateKeepsKeysUnique(db: Db, userId: string, amount: int, utr: Option<string>, upi: Option<string>,
                              id: string, now: nat, randomText: string, writeOk: bool)
    requires KeysUnique(db.txns)
    ensures KeysUnique(CreateDeposit(db, userId, amount, utr, id, now, randomText, writeOk).db.txns)
    ensures KeysUnique(CreateWithdrawal(db, userId, amount, upi, id, now, randomText, writeOk).db.txns)
  {
    if userId in db.users {
      SubmitKeepsKeysUnique(db, Draft(userId, Deposit, amount, utr, None, id, now, randomText),
                            "Deposit request submitted", db.users[userId].balance, writeOk);
      SubmitKeepsKeysUnique(db, Draft(userId, Withdrawal, amount, None, upi, id, now, randomText),
                            "Withdrawal request submitted", db.users[userId].balance, writeOk);
    }
  }

  lemma SubmitKeepsKeysUnique(db: Db, t: Transaction, description: string, balance: int, writeOk: bool)
    requires KeysUnique(db.txns) && t.status == Pending
    ensures KeysUnique(Submit(db, t, description, balance, writeOk).db.txns)
  {
    var r := Submit(db, t, description, balance, writeOk);
    if r.result.Ok? {
      var s := r.db.txns;
      forall a, b | 0 <= a < b < |s| ensures s[a].id != s[b].id && s[a].orderId != s[b].orderId {
        if b == |db.txns| {
          assert s[a] == db.txns[a];
          assert !(db.txns[a].id == t.id || db.txns[a].orderId == t.orderId);
        }
      }
    }
  }

  /** The request as `approveTransaction` hands it to the save. */
  function ApprovedRequest(t: Transaction, adminId: string, remarks: string, now: int): Transaction {
    t.(status := Processing, adminId := Some(adminId), adminAction := Some(AdminAction(Approved, now, remarks)))
  }

  /** The request as `rejectTransaction` hands it to the save. */
  function RejectedRequest(t: Transaction, adminId: string, reason: string, now: int): Transaction {
    t.(status := Rejected, adminId := Some(adminId), adminAction := Some(AdminAction(RejectedAction, now, reason)))
  }

  /** `approveTransaction`: only a PENDING request can be approved; it
      becomes PROCESSING, stamped by the save hook, and its history is
      tagged PROCESSING_PAYMENT. */
  function ApproveTransaction(db: Db, txnId: string, adminId: string, remarks: string, now: int, writeOk: bool): (r: Step)
    ensures r.result.Err? ==> r.db == db
    ensures FindTxn(db.txns, txnId).None? ==> r.result == Err(TxnAbsent)
    ensures FindTxn(db.txns, txnId).Some? && db.txns[FindTxn(db.txns, txnId).value].status != Pending ==>
      r.result == Err(NotPending)
    ensures FindTxn(db.txns, txnId).Some? && db.txns[FindTxn(db.txns, txnId).value].status == Pending ==>
      (r.result.Ok? <==>
         Errors(ApprovedRequest(db.txns[FindTxn(db.txns, txnId).value], adminId, remarks, now), SchemaActions) == {}
         && writeOk)
    ensures r.result.Ok? ==>
      (&& FindTxn(db.txns, txnId).Some?
       && var i := FindTxn(db.txns, txnId).value;
          && db.txns[i].status == Pending
          && r.result.value == db.txns[i].(status := Processing, adminId := Some(adminId),
               adminAction := Some(AdminAction(Approved, now, remarks)), processedAt := Some(now))
          && r.db == db.(txns := db.txns[i := r.result.value], history := Retag(db.history, txnId, ProcessingPayment)))
  {
    var found := FindTxn(db.txns, txnId);
    if found.None? then Step(db, Err(TxnAbsent))
    else
      var i := found.value;
      var t := db.txns[i];
      if t.status != Pending then Step(db, Err(NotPending))
      else
        var t' := ApprovedRequest(t, adminId, remarks, now);
        match Save(Some(t.status), t', now, SchemaActions, writeOk)
        case Err(Invalid(e)) => Step(db, Err(ValidationFailed(e)))
        case Err(WriteFailed) => Step(db, Err(WriteFailure))
        case Ok(saved) => Step(db.(txns := db.txns[i := saved], history := Retag(db.history, txnId, ProcessingPayment)), Ok(saved))
  }

  /** `rejectTransaction`: any stored request, whatever its status, becomes
      REJECTED and its history is tagged REJECTED. */
  function RejectTransaction(db: Db, txnId: string, adminId: string, reason: string, now: int, writeOk: bool): (r: Step)
    ensures r.result.Err? ==> r.db == db
    ensures FindTxn(db.txns, txnId).None? ==> r.result == Err(TxnAbsent)
    ensures FindTxn(db.txns, txnId).Some? ==>
      (r.result.Ok? <==>
         Errors(RejectedRequest(db.txns[FindTxn(db.txns, txnId).value], adminId, reason, now), SchemaActions) == {}
         && writeOk)
    ensures r.result.Ok? ==>
      (&& FindTxn(db.txns, txnId).Some?
       && var i := FindTxn(db.txns, txnId).value;
          && r.result.value == db.txns[i].(status := Rejected, adminId := Some(adminId),
               adminAction := Some(AdminAction(RejectedAction, now, reason)))
          && r.db == db.(txns := db.txns[i := r.result.value], history := Retag(db.history, txnId, RejectedTag)))
  {
    var found := FindTxn(db.txns, txnId);
    if found.None? then Step(db, Err(TxnAbsent))
    else
      var i := found.value;
      var t := db.txns[i];
      var t' := RejectedRequest(t, adminId, reason, now);
      match Save(Some(t.status), t', now, SchemaActions, writeOk)
      case Err(Invalid(e)) => Step(db, Err(ValidationFailed(e)))
      case Err(WriteFailed) => Step(db, Err(WriteFailure))
      case Ok(saved) => Step(db.(txns := db.txns[i := saved], history := Retag(db.history, txnId, RejectedTag)), Ok(saved))
  }

  /** A request is approved at most once: the approval takes it out of
      PENDING, so approving it again is refused and changes nothing. */
  lemma ApproveOnlyOnce(db: Db, txnId: string, adminId: string, remarks: string, now: int, writeOk: bool,
                        adminId2: string, remarks2: string, now2: int, writeOk2: bool)
    requires ApproveTransaction(db, txnId, adminId, remarks, now, writeOk).result.Ok?
    ensures var db1 := ApproveTransaction(db, txnId, adminId, remarks, now, writeOk).db;
      ApproveTransaction(db1, txnId, adminId2, remarks2, now2, writeOk2) == Step(db1, Err(NotPending))
  {
    var r := ApproveTransaction(db, txnId, adminId, remarks, now, writeOk);
    var i := FindTxn(db.txns, txnId).value;
    FindAfterUpdate(db.txns, i, r.result.value, txnId);
  }

  /** A request already posted to the wallet can still be rejected, and the
      money stays where the posting put it. */
  lemma RejectAfterCompletion(db: Db, txnId: string, adminId: string, reason: string, now: int)
    requires FindTxn(db.txns, txnId).Some?
    requires var t := db.txns[FindTxn(db.txns, txnId).value];
      t.status == Completed && Errors(t.(adminAction := None), SchemaActions) == {}
    ensures var r := RejectTransaction(db, txnId, adminId, reason, now, true);
      r.result.Ok? && r.result.value.status == Rejected && r.db.users == db.users && r.db.ledger == db.ledger
  {
  }

  /** `completeTransaction` as written: the action type it records,
      COMPLETED, is not in the schema's enum, so the save always fails
      validation and nothing is stored. */
  function CompleteTransactionAsWritten(db: Db, txnId: string, adminId: string, details: string, now: int, writeOk: bool): (r: Step)
    ensures r.db == db && r.result.Err?
    ensures FindTxn(db.txns, txnId).Some? ==> r.result.error.ValidationFailed? && BadActionType in r.result.error.errors
  {
    var found := FindTxn(db.txns, txnId);
    if found.None? then Step(db, Err(TxnAbsent))
    else
      var i := found.value;
      var t := db.txns[i];
      var t' := t.(status := Completed, adminId := Some(adminId), adminAction := Some(AdminAction(CompletedAction, now, details)));
      match Save(Some(t.status), t', now, SchemaActions, writeOk)
      case Err(Invalid(e)) => Step(db, Err(ValidationFailed(e)))
      case Err(WriteFailed) => Step(db, Err(WriteFailure))
      // The save cannot succeed: the action type is outside the enum.
      case Ok(_) => assert false; Step(db, Err(WriteFailure))
  }

  /** The action types once COMPLETED is admitted to the enum. */
  const IntendedActions: set<ActionType> := SchemaActions + {CompletedAction}

  /** `completeTransaction` with COMPLETED admitted as an action type: any
      stored request becomes COMPLETED, stamped by the save hook when its
      status changes, and its history is tagged COMPLETED. No balance
      moves. */
  function CompleteTransaction(db: Db, txnId: string, adminId: string, details: string, now: int, writeOk: bool): (r: Step)
    ensures r.result.Err? ==> r.db == db
    ensures FindTxn(db.txns, txnId).None? ==> r.result == Err(TxnAbsent)
    ensures r.db.users == db.users && r.db.ledger == db.ledger
    ensures r.result.Ok? ==>
      (&& FindTxn(db.txns, txnId).Some?
       && var i := FindTxn(db.txns, txnId).value;
          && r.result.value.status == Completed
          && r.result.value.adminAction == Some(AdminAction(CompletedAction, now, details))
          && (db.txns[i].status != Completed ==> r.result.value.completedAt == Some(now))
          && r.db == db.(txns := db.txns[i := r.result.value], history := Retag(db.history, txnId, CompletedTag)))
    ensures FindTxn(db.txns, txnId).Some? ==>
      (r.result.Ok? <==> writeOk && Errors(db.txns[FindTxn(db.txns, txnId).value].(adminAction := None), SchemaActions) == {})
  {
    var found := FindTxn(db.txns, txnId);
    if found.None? then Step(db, Err(TxnAbsent))
    else
      var i := found.value;
      var t := db.txns[i];
      var t' := t.(status := Completed, adminId := Some(adminId), adminAction := Some(AdminAction(CompletedAction, now, details)));
      match Save(Some(t.status), t', now, IntendedActions, writeOk)
      case Err(Invalid(e)) => Step(db, Err(ValidationFailed(e)))
      case Err(WriteFailed) => Step(db, Err(WriteFailure))
      case Ok(saved) => Step(db.(txns := db.txns[i := saved], history := Retag(db.history, txnId, CompletedTag)), Ok(saved))
  }

  /** The query of `getPendingTransactions`: PENDING requests, of the given
      type if there is one, in collection order. */
  function PendingOf(txns: seq<Transaction>, kind: Option<TxnType>): (r: seq<Transaction>)
    ensures forall j :: 0 <= j < |r| ==> r[j].status == Pending && (kind.Some? ==> r[j].kind == kind.value)
    ensures forall j :: 0 <= j < |r| ==> r[j] in txns
    ensures forall k :: 0 <= k < |txns| && txns[k].status == Pending && (kind.Some? ==> txns[k].kind == kind.value) ==>
      txns[k] in r
    decreases |txns|
  {
    if |txns| == 0 then []
    else
      var init := txns[..|txns| - 1];
      var last := txns[|txns| - 1];
      assert forall k :: 0 <= k < |init| ==> txns[k] == init[k];
      var r := PendingOf(init, kind);
      if last.status == Pending && (kind.None? || last.kind == kind.value) then r + [last] else r
  }

  predicate OldestFirst(s: seq<Transaction>) {
    forall a, b :: 0 <= a < b < |s| ==> s[a].createdAt <= s[b].createdAt
  }

  /** `getPendingTransactions`: one page of the pending requests, oldest
      first. */
  function GetPendingTransactions(txns: seq<Transaction>, kind: Option<TxnType>, page: int, limit: int): (r: seq<Transaction>)
    requires page >= 1 && limit >= 1
    ensures |r| <= limit
    ensures forall j :: 0 <= j < |r| ==> r[j].status == Pending && (kind.Some? ==> r[j].kind == kind.value) && r[j] in txns
    ensures var pending := PendingOf(txns, kind);
      && |r| == (if Skip(page, limit) >= |pending| then 0
                 else if |pending| - Skip(page, limit) < limit then |pending| - Skip(page, limit) else limit)
      && (|r| > 0 <==> page <= CeilDiv(|pending|, limit))
      && forall j :: 0 <= j < |r| ==> Skip(page, limit) + j < |pending| && r[j] == pending[Skip(page, limit) + j]
  {
    var pending := PendingOf(txns, kind);
    PageWithinCount(pending, page, limit);
    Window(pending, page, limit)
  }

  /** When the collection holds requests in creation order, the query
      keeps that order, so a page lists the oldest requests first. */
  lemma {:induction false} PendingKeepsOrder(txns: seq<Transaction>, kind: Option<TxnType>)
    requires OldestFirst(txns)
    ensures OldestFirst(PendingOf(txns, kind))
    decreases |txns|
  {
    if |txns| > 0 {
      var init := txns[..|txns| - 1];
      assert OldestFirst(init);
      PendingKeepsOrder(init, kind);
      var r := PendingOf(init, kind);
      forall j | 0 <= j < |r| ensures r[j].createdAt <= txns[|txns| - 1].createdAt {
        var k :| 0 <= k < |init| && init[k] == r[j];
      }
    }
  }

  /** A page of an oldest-first query is itself oldest first. */
  lemma PendingPageOldestFirst(txns: seq<Transaction>, kind: Option<TxnType>, page: int, limit: int)
    requires page >= 1 && limit >= 1 && OldestFirst(txns)
    ensures OldestFirst(GetPendingTransactions(txns, kind, page, limit))
  {
    PendingKeepsOrder(txns, kind);
  }

  /** After the TTL monitor has run, an expired request is gone for good:
      approving or rejecting it reports it missing, whatever its status was,
      and no pending list shows an expired request. */
  lemma ExpiredRequestGone(db: Db, now: int, txnId: string, adminId: string, remarks: string, at: int, writeOk: bool,
                           kind: Option<TxnType>)
    requires KeysUnique(db.txns)
    requires FindTxn(db.txns, txnId).Some? && db.txns[FindTxn(db.txns, txnId).value].expiresAt <= now
    ensures ApproveTransaction(ExpireRequests(db, now), txnId, adminId, remarks, at, writeOk).result == Err(TxnAbsent)
    ensures RejectTransaction(ExpireRequests(db, now), txnId, adminId, remarks, at, writeOk).result == Err(TxnAbsent)
    ensures var p := PendingOf(ExpireRequests(db, now).txns, kind);
      forall j :: 0 <= j < |p| ==> now < p[j].expiresAt
  {
    ExpiredNotFound(db.txns, txnId, now);
  }
}

=== FILE: settlement.dfy ===
/** Balance updates of server/services/BettingService.js: each settled bet
    is one `$inc` upsert on the player's record, and `processWinnings` issues
    one per record. The users collection is a map from user id to record. */
module Settlement {
  import opened Wrappers
  import opened Payouts
  import opened UserModel

  type UserStore = map<string, User>

  datatype Failure = UserNotFound

  datatype Stats = Stats(balance: int, totalBets: int, totalWins: int)

  /** `getUserBalance`: the stored balance, or "User not found". */
  function GetUserBalance(users: UserStore, id: string): (r: Result<int, Failure>)
    ensures r.Ok? <==> id in users
    ensures r.Ok? ==> r.value == users[id].balance
    ensures r.Err? ==> r.error == UserNotFound
  {
    if id in users then Ok(users[id].balance) else Err(UserNotFound)
  }

  /** `getUserStats` without the floating-point win rate. */
  function GetUserStats(users: UserStore, id: string): (r: Result<Stats, Failure>)
    ensures r.Ok? <==> id in users
    ensures r.Ok? ==> r.value == Stats(users[id].balance, users[id].totalBets, users[id].totalWins)
  {
    if id in users then Ok(Stats(users[id].balance, users[id].totalBets, users[id].totalWins))
    else Err(UserNotFound)
  }

  /** The record an `$inc` upsert starts from: the stored one, or a fresh
      record whose incremented fields start at 0. */
  function Base(users: UserStore, id: string): User {
    if id in users then users[id] else User(0, 0, 0)
  }

  /** `updateUserBalance`: one increment of the player's balance and
      counters, creating the record if it is missing. Validators do not run
      on this update, so the balance may go below zero. */
  function UpdateUserBalance(users: UserStore, player: string, stake: int, winTenths: int): (r: UserStore)
    ensures r.Keys == users.Keys + {player}
    ensures forall q :: q in users && q != player ==> r[q] == users[q]
    ensures r[player].balance == Base(users, player).balance + BalanceChange(stake, winTenths)
    ensures r[player].totalBets == Base(users, player).totalBets + Tenths(stake)
    ensures r[player].totalWins == Base(users, player).totalWins + PaidOut(winTenths)
  {
    var u := Base(users, player);
    users[player := User(u.balance + BalanceChange(stake, winTenths),
                         u.totalBets + Tenths(stake),
                         u.totalWins + PaidOut(winTenths))]
  }

  /** `processWinnings`: one update per record, applied in turn. The
      concurrent `Promise.all` is a sequential fold: increments commute, see
      `ProcessWinningsOrderFree`. */
  function ProcessWinnings(users: UserStore, records: seq<BetRecord>): (r: UserStore)
    ensures r.Keys == users.Keys + Players(records)
    decreases |records|
  {
    if |records| == 0 then users
    else
      var last := records[|records| - 1];
      PlayersSnoc(records);
      UpdateUserBalance(ProcessWinnings(users, records[..|records| - 1]), last.player, last.amount, last.winTenths)
  }

  function ChangeOf(r: BetRecord): int { BalanceChange(r.amount, r.winTenths) }
  function StakeOf(r: BetRecord): int { Tenths(r.amount) }
  function WinOf(r: BetRecord): int { PaidOut(r.winTenths) }

  /** The sum of `f` over the records of one player. */
  function Total(records: seq<BetRecord>, p: string, f: BetRecord -> int): int
    decreases |records|
  {
    if |records| == 0 then 0
    else
      var last := records[|records| - 1];
      Total(records[..|records| - 1], p, f) + (if last.player == p then f(last) else 0)
  }

  /** After `processWinnings` every player's balance is the starting one
      plus the sum of the per-bet changes, and each counter grows by the sum
      of its increments; players without records keep their record. */
  lemma {:induction false} ProcessWinningsTotals(users: UserStore, records: seq<BetRecord>, p: string)
    ensures ProcessWinnings(users, records).Keys == users.Keys + Players(records)
    ensures p in users || p in Players(records) ==>
      ProcessWinnings(users, records)[p] == Settled(users, records, p)
  {
    ProcessWinningsBase(users, records, p);
  }

  /** The record a player ends with, or would start from if absent, is the
      closed form `Settled`. */
  lemma {:induction false} ProcessWinningsBase(users: UserStore, records: seq<BetRecord>, p: string)
    ensures Base(ProcessWinnings(users, records), p) == Settled(users, records, p)
    decreases |records|
  {
    if |records| > 0 {
      var init := records[..|records| - 1];
      ProcessWinningsBase(users, init, p);
      assert init + [records[|records| - 1]] == records;
      SettleStep(users, ProcessWinnings(users, init), init, records[|records| - 1], p);
    } else {
      ZeroTotals(records, p);
    }
  }

  /** One more update moves the closed form by that record's increments. */
  lemma SettleStep(users: UserStore, before: UserStore, init: seq<BetRecord>, last: BetRecord, p: string)
    requires Base(before, p) == Settled(users, init, p)
    ensures Base(UpdateUserBalance(before, last.player, last.amount, last.winTenths), p)
      == Settled(users, init + [last], p)
  {
    TotalSnoc(init, last, p, ChangeOf);
    TotalSnoc(init, last, p, StakeOf);
    TotalSnoc(init, last, p, WinOf);
  }

  lemma TotalSnoc(init: seq<BetRecord>, last: BetRecord, p: string, f: BetRecord -> int)
    ensures Total(init + [last], p, f) == Total(init, p, f) + (if last.player == p then f(last) else 0)
  {
    assert (init + [last])[..|init|] == init;
  }

  /** The closed form of a player's record after settling `records`. */
  function Settled(users: UserStore, records: seq<BetRecord>, p: string): User {
    User(Base(users, p).balance + Total(records, p, ChangeOf),
         Base(users, p).totalBets + Total(records, p, StakeOf),
         Base(users, p).totalWins + Total(records, p, WinOf))
  }

  lemma PlayersSnoc(records: seq<BetRecord>)
    requires |records| > 0
    ensures Players(records) == Players(records[..|records| - 1]) + {records[|records| - 1].player}
  {
    var init := records[..|records| - 1];
    forall q | q in Players(records) ensures q in Players(init) + {records[|records| - 1].player} {
      var i :| 0 <= i < |records| && records[i].player == q;
      if i < |init| { assert init[i] == records[i]; }
    }
    forall q | q in Players(init) ensures q in Players(records) {
      var i :| 0 <= i < |init| && init[i].player == q;
      assert records[i] == init[i];
    }
  }

  /** A player no record names has zero totals. */
  lemma {:induction false} ZeroTotals(records: seq<BetRecord>, p: string)
    requires p !in Players(records)
    ensures Total(records, p, ChangeOf) == 0
    ensures Total(records, p, StakeOf) == 0
    ensures Total(records, p, WinOf) == 0
    decreases |records|
  {
    if |records| > 0 {
      var init := records[..|records| - 1];
      assert Players(init) <= Players(records) by {
        forall q | q in Players(init) ensures q in Players(records) {
          var i :| 0 <= i < |init| && init[i].player == q;
          assert records[i] == init[i];
        }
      }
      ZeroTotals(init, p);
      assert records[|records| - 1].player in Players(records);
    }
  }

  /** Totals over a concatenation add up. */
  lemma {:induction false} TotalAppend(a: seq<BetRecord>, b: seq<BetRecord>, p: string, f: BetRecord -> int)
    ensures Total(a + b, p, f) == Total(a, p, f) + Total(b, p, f)
    decreases |b|
  {
    if |b| > 0 {
      assert (a + b)[..|a + b| - 1] == a + b[..|b| - 1];
      TotalAppend(a, b[..|b| - 1], p, f);
    } else {
      assert a + b == a;
    }
  }

  /** Totals do not depend on the order of the records. */
  lemma {:induction false} TotalPermutation(a: seq<BetRecord>, b: seq<BetRecord>, p: string, f: BetRecord -> int)
    requires multiset(a) == multiset(b)
    ensures Total(a, p, f) == Total(b, p, f)
    decreases |a|
  {
    if |a| > 0 {
      var x := a[|a| - 1];
      var a' := a[..|a| - 1];
      assert x in multiset(a);
      assert x in multiset(b);
      var i :| 0 <= i < |b| && b[i] == x;
      var b' := b[..i] + b[i + 1..];
      RemoveAt(b, i);
      RemoveAt(a, |a| - 1);
      assert a' + a[|a|..] == a';
      TotalPermutation(a', b', p, f);
      TotalRemoveAt(b, i, p, f);
      var fx := if x.player == p then f(x) else 0;
      assert Total(a, p, f) == Total(a', p, f) + fx;
      assert Total(b, p, f) == Total(b', p, f) + fx;
    }
  }

  lemma RemoveAt(s: seq<BetRecord>, i: nat)
    requires i < |s|
    ensures multiset(s[..i] + s[i + 1..]) == multiset(s) - multiset{s[i]}
  {
    assert s == s[..i] + [s[i]] + s[i + 1..];
    assert multiset(s) == multiset(s[..i]) + multiset{s[i]} + multiset(s[i + 1..]);
  }

  lemma TotalRemoveAt(s: seq<BetRecord>, i: nat, p: string, f: BetRecord -> int)
    requires i < |s|
    ensures Total(s, p, f) == Total(s[..i] + s[i + 1..], p, f) + (if s[i].player == p then f(s[i]) else 0)
  {
    assert s == s[..i] + ([s[i]] + s[i + 1..]);
    TotalAppend(s[..i], [s[i]] + s[i + 1..], p, f);
    TotalAppend([s[i]], s[i + 1..], p, f);
    TotalAppend(s[..i], s[i + 1..], p, f);
    assert [s[i]][..0] == [];
  }

  /** The result of `processWinnings` is the same whatever order the
      updates run in. */
  lemma ProcessWinningsOrderFree(users: UserStore, a: seq<BetRecord>, b: seq<BetRecord>)
    requires multiset(a) == multiset(b)
    ensures ProcessWinnings(users, a) == ProcessWinnings(users, b)
  {
    PlayersPermutation(a, b);
    var ra, rb := ProcessWinnings(users, a), ProcessWinnings(users, b);
    forall p | p in ra
      ensures Base(ra, p) == Base(rb, p)
    {
      SameSettled(users, a, b, p);
    }
    SameRecords(ra, rb);
  }

  /** Two stores with the same keys and the same record under each key are
      the same store. */
  lemma SameRecords(ra: UserStore, rb: UserStore)
    requires ra.Keys == rb.Keys
    requires forall p :: p in ra ==> Base(ra, p) == Base(rb, p)
    ensures ra == rb
  {
    assert forall p :: p in ra ==> ra[p] == Base(ra, p) == Base(rb, p) == rb[p];
  }

  lemma SameSettled(users: UserStore, a: seq<BetRecord>, b: seq<BetRecord>, p: string)
    requires multiset(a) == multiset(b)
    ensures Base(ProcessWinnings(users, a), p) == Base(ProcessWinnings(users, b), p)
  {
    ProcessWinningsBase(users, a, p);
    ProcessWinningsBase(users, b, p);
    TotalPermutation(a, b, p, ChangeOf);
    TotalPermutation(a, b, p, StakeOf);
    TotalPermutation(a, b, p, WinOf);
  }

  lemma PlayersPermutation(a: seq<BetRecord>, b: seq<BetRecord>)
    requires multiset(a) == multiset(b)
    ensures Players(a) == Players(b)
  {
    forall q | q in Players(a) ensures q in Players(b) {
      var i :| 0 <= i < |a| && a[i].player == q;
      assert a[i] in multiset(b);
    }
    forall q | q in Players(b) ensures q in Players(a) {
      var i :| 0 <= i < |b| && b[i].player == q;
      assert b[i] in multiset(a);
    }
  }
}

=== FILE: store.dfy ===
/** The collections the money operations read and write: users keyed by
    user id, and the transactions, wallet ledger and request history in
    insertion order. */
module Store {
  import opened Wrappers
  import opened UserModel
  import opened Settlement
  import opened Transactions

  datatype EntryType = Credit | Debit

  /** A WalletTransaction document. */
  datatype WalletEntry = WalletEntry(userId: string, txnId: string, entryType: EntryType, amount: int,
                                     balanceBefore: int, balanceAfter: int, description: string, orderId: string)

  datatype Tag = ProcessingPayment | CompletedTag | RejectedTag | CancelledTag

  /** A TransactionHistory document. */
  datatype HistoryEntry = HistoryEntry(txnId: string, userId: string, orderId: string, kind: TxnType,
                                       amount: int, status: Status, tag: Tag, description: string,
                                       balanceBefore: int, balanceAfter: int,
                                       utrNumber: Option<string>, upiId: Option<string>, adminRemarks: Option<string>)

  datatype Db = Db(users: UserStore, txns: seq<Transaction>, ledger: seq<WalletEntry>, history: seq<HistoryEntry>)

  /** `findById`: the position of the transaction with this id. */
  function FindTxn(txns: seq<Transaction>, id: string): (r: Option<nat>)
    ensures r.Some? ==> r.value < |txns| && txns[r.value].id == id
    ensures r.None? <==> forall i :: 0 <= i < |txns| ==> txns[i].id != id
    decreases |txns|
  {
    if |txns| == 0 then None
    else if txns[0].id == id then Some(0)
    else
      var r := FindTxn(txns[1..], id);
      if r.Some? then Some(r.value + 1) else None
  }

  /** The requests the TTL index on `expiresAt` keeps at time `now`: it
      deletes every request whose `expiresAt` has passed, whatever its
      status, and keeps the rest in order. */
  function Unexpired(txns: seq<Transaction>, now: int): (r: seq<Transaction>)
    ensures |r| <= |txns|
    ensures forall t :: t in r <==> t in txns && now < t.expiresAt
    decreases |txns|
  {
    if |txns| == 0 then []
    else (if now < txns[0].expiresAt then [txns[0]] else []) + Unexpired(txns[1..], now)
  }

  /** One pass of the TTL monitor at time `now`. Only the requests change:
      history and ledger entries live in other collections and stay. */
  function ExpireRequests(db: Db, now: int): (r: Db)
    ensures r == db.(txns := r.txns)
    ensures forall t :: t in r.txns <==> t in db.txns && now < t.expiresAt
  {
    db.(txns := Unexpired(db.txns, now))
  }

  /** Once its `expiresAt` has passed, a request can no longer be found by
      its id. Ids are unique, as `_id` is. */
  lemma ExpiredNotFound(txns: seq<Transaction>, id: string, now: int)
    requires forall a, b :: 0 <= a < b < |txns| ==> txns[a].id != txns[b].id
    requires FindTxn(txns, id).Some? && txns[FindTxn(txns, id).value].expiresAt <= now
    ensures FindTxn(Unexpired(txns, now), id).None?
  {
    var k := FindTxn(txns, id).value;
    var r := Unexpired(txns, now);
    forall i | 0 <= i < |r|
      ensures r[i].id != id
    {
      assert r[i] in txns;
      var j :| 0 <= j < |txns| && txns[j] == r[i];
      assert txns[j].id == id ==> j == k;
    }
  }

  /** Rewriting a transaction in place under the same id does not move it. */
  lemma {:induction false} FindAfterUpdate(txns: seq<Transaction>, i: nat, x: Transaction, id: string)
    requires i < |txns| && x.id == txns[i].id
    ensures FindTxn(txns[i := x], id) == FindTxn(txns, id)
    decreases |txns|
  {
    if |txns| > 0 && txns[0].id != id {
      if i > 0 {
        assert txns[i := x][1..] == txns[1..][i - 1 := x];
        FindAfterUpdate(txns[1..], i - 1, x, id);
      } else {
        assert txns[i := x][1..] == txns[1..];
      }
    }
  }

  /** An `updateMany({ transactionId }, ...)` over the history: every entry
      of the transaction is rewritten by `f`, the others stay. */
  function UpdateHistory(history: seq<HistoryEntry>, txnId: string, f: HistoryEntry -> HistoryEntry): (r: seq<HistoryEntry>)
    ensures |r| == |history|
    ensures forall i :: 0 <= i < |r| ==> r[i] == if history[i].txnId == txnId then f(history[i]) else history[i]
  {
    seq(|history|, i requires 0 <= i < |history| => if history[i].txnId == txnId then f(history[i]) else history[i])
  }

  /** The same history tag on every entry of a transaction. */
  function Retag(history: seq<HistoryEntry>, txnId: string, tag: Tag): (r: seq<HistoryEntry>)
    ensures |r| == |history|
    ensures forall i :: 0 <= i < |r| && history[i].txnId == txnId ==> r[i] == history[i].(tag := tag)
    ensures forall i :: 0 <= i < |r| && history[i].txnId != txnId ==> r[i] == history[i]
  {
    UpdateHistory(history, txnId, (h: HistoryEntry) => h.(tag := tag))
  }

  /** The number of results a page skips. */
  function Skip(page: int, limit: int): nat
    requires page >= 1 && limit >= 1
  {
    (page - 1) * limit
  }

  /** `.skip((page - 1) * limit).limit(limit)` over an already ordered
      result. */
  function Window<T>(s: seq<T>, page: int, limit: int): (r: seq<T>)
    requires page >= 1 && limit >= 1
    ensures |r| == (if Skip(page, limit) >= |s| then 0
                    else if |s| - Skip(page, limit) < limit then |s| - Skip(page, limit) else limit)
    ensures forall j :: 0 <= j < |r| ==> r[j] == s[Skip(page, limit) + j]
  {
    var skip := Skip(page, limit);
    if skip >= |s| then []
    else if skip + limit <= |s| then s[skip..skip + limit]
    else s[skip..]
  }

  /** `Math.ceil(total / limit)` for a non-negative total. */
  function CeilDiv(total: nat, limit: nat): (q: nat)
    requires limit >= 1
    ensures q * limit >= total && (q == 0 || (q - 1) * limit < total)
  {
    var q := (total + limit - 1) / limit;
    assert q * limit + (total + limit - 1) % limit == total + limit - 1;
    q
  }

  /** A page is non-empty exactly when its number is at most the page
      count the listing reports. */
  lemma PageWithinCount<T>(s: seq<T>, page: int, limit: int)
    requires page >= 1 && limit >= 1
    ensures |Window(s, page, limit)| > 0 <==> page <= CeilDiv(|s|, limit)
  {
    var q := CeilDiv(|s|, limit);
    if page <= q {
      assert (page - 1) * limit <= (q - 1) * limit by {
        MulMono(page - 1, q - 1, limit);
      }
    } else {
      assert (page - 1) * limit >= q * limit by {
        MulMono(q, page - 1, limit);
      }
    }
  }

  lemma MulMono(a: int, b: int, c: int)
    requires 0 <= a <= b && c >= 0
    ensures a * c <= b * c
  {
  }
}

=== FILE: text.dfy ===
/** The few JavaScript string operations the modelled code relies on:
    integer-to-decimal conversion, `padStart`, `slice`, `toUpperCase` and
    `trim`. */
module Text {

  /** The character of a decimal digit. */
  function DigitChar(d: int): (c: char)
    requires 0 <= d < 10
    ensures '0' <= c <= '9'
  {
    (d + '0' as int) as char
  }

  predicate IsDigit(c: char) {
    '0' <= c <= '9'
  }

  function DigitValue(c: char): (d: int)
    requires IsDigit(c)
    ensures 0 <= d < 10
  {
    c as int - '0' as int
  }

  /** `n.toString()` for a non-negative integer: its decimal digits, no
      leading zeros. */
  function NatToDecimal(n: nat): (s: string)
    ensures |s| >= 1
    ensures forall i :: 0 <= i < |s| ==> IsDigit(s[i])
    ensures s[0] == '0' ==> n == 0
    decreases n
  {
    if n < 10 then [DigitChar(n)] else NatToDecimal(n / 10) + [DigitChar(n % 10)]
  }

  /** The number a string of decimal digits denotes (leading zeros allowed). */
  function DecimalValue(s: string): nat
    requires forall i :: 0 <= i < |s| ==> IsDigit(s[i])
  {
    if |s| == 0 then 0 else 10 * DecimalValue(s[..|s| - 1]) + DigitValue(s[|s| - 1])
  }

  function Pow10(k: nat): (p: nat)
    ensures p >= 1
  {
    if k == 0 then 1 else 10 * Pow10(k - 1)
  }

  /** Reading back the decimal digits of `n` gives `n`. */
  lemma {:induction false} DecimalRoundTrip(n: nat)
    ensures DecimalValue(NatToDecimal(n)) == n
    decreases n
  {
    var s := NatToDecimal(n);
    if n >= 10 {
      DecimalRoundTrip(n / 10);
      assert s[..|s| - 1] == NatToDecimal(n / 10);
    }
  }

  /** `NatToDecimal(n)` has at least `k + 1` digits exactly when `n >= 10^k`. */
  lemma {:induction false} DecimalLength(n: nat, k: nat)
    requires k >= 1
    ensures |NatToDecimal(n)| >= k + 1 <==> n >= Pow10(k)
    decreases n
  {
    if n >= 10 {
      if k > 1 {
        DecimalLength(n / 10, k - 1);
      }
      assert n / 10 >= Pow10(k - 1) <==> n >= 10 * Pow10(k - 1);
    } else {
      PowGrows(k);
    }
  }

  lemma {:induction false} PowGrows(k: nat)
    requires k >= 1
    ensures Pow10(k) >= 10
  {
    if k > 1 {
      PowGrows(k - 1);
    }
  }

  /** `s.slice(-k)` for `k > 0`: the last `k` characters, or all of `s` when
      it is shorter. */
  function TakeLast(s: string, k: nat): (r: string)
    ensures |r| == if |s| < k then |s| else k
    ensures r == s[|s| - |r|..]
  {
    if |s| < k then s else s[|s| - k..]
  }

  /** `s.slice(from, to)` for `0 <= from <= to`: the indices are clamped to
      the string's length. */
  function Slice(s: string, from: nat, to: nat): (r: string)
    requires from <= to
    ensures |r| <= to - from
    ensures |r| == (if to <= |s| then to else |s|) - (if from <= |s| then from else |s|)
    ensures forall i :: 0 <= i < |r| ==> r[i] == s[from + i]
  {
    var hi := if to <= |s| then to else |s|;
    var lo := if from <= |s| then from else |s|;
    s[lo..hi]
  }

  /** The last `k` digits of `n`, when `n` has at least `k` digits, denote
      `n mod 10^k` (leading zeros included). */
  lemma {:induction false} TakeLastDigits(n: nat, k: nat)
    requires |NatToDecimal(n)| >= k
    ensures DecimalValue(TakeLast(NatToDecimal(n), k)) == n % Pow10(k)
    decreases n
  {
    if k == 0 {
      assert TakeLast(NatToDecimal(n), k) == [];
    } else if n < 10 {
      assert TakeLast(NatToDecimal(n), k) == NatToDecimal(n);
      DecimalRoundTrip(n);
    } else {
      assert NatToDecimal(n) == NatToDecimal(n / 10) + [DigitChar(n % 10)];
      TakeLastDigits(n / 10, k - 1);
      TakeLastStep(n, k);
    }
  }

  /** One step of `TakeLastDigits`: from the last `k - 1` digits of `n / 10`
      to the last `k` digits of `n`. */
  lemma TakeLastStep(n: nat, k: nat)
    requires n >= 10 && k >= 1 && |NatToDecimal(n)| >= k
    requires |NatToDecimal(n / 10)| >= k - 1
    requires DecimalValue(TakeLast(NatToDecimal(n / 10), k - 1)) == (n / 10) % Pow10(k - 1)
    ensures DecimalValue(TakeLast(NatToDecimal(n), k)) == n % Pow10(k)
  {
    var c := DigitChar(n % 10);
    var front := NatToDecimal(n / 10);
    var t' := TakeLast(front, k - 1);
    assert TakeLast(NatToDecimal(n), k) == t' + [c] by {
      assert NatToDecimal(n) == front + [c];
      TakeLastSnoc(front, c, k);
    }
    DecimalSnoc(t', c);
    assert n % Pow10(k) == 10 * ((n / 10) % Pow10(k - 1)) + n % 10 by {
      ModSplit(n, Pow10(k - 1));
    }
  }

  lemma TakeLastSnoc(s: string, c: char, k: nat)
    requires 1 <= k <= |s| + 1
    ensures TakeLast(s + [c], k) == TakeLast(s, k - 1) + [c]
  {
  }

  lemma DecimalSnoc(t: string, c: char)
    requires forall i :: 0 <= i < |t| ==> IsDigit(t[i])
    requires IsDigit(c)
    ensures DecimalValue(t + [c]) == 10 * DecimalValue(t) + DigitValue(c)
  {
    assert (t + [c])[..|t|] == t;
  }

  /** Quotient and remainder are unique. */
  lemma DivModUnique(n: int, d: int, q: int, r: int)
    requires d > 0 && n == q * d + r && 0 <= r < d
    ensures n / d == q && n % d == r
  {
    var q0, r0 := n / d, n % d;
    assert (q - q0) * d == r0 - r;
    if q0 < q {
      assert (q - q0) * d >= d by { MulAtLeast(q - q0, d); }
    } else if q < q0 {
      assert (q0 - q) * d >= d by { MulAtLeast(q0 - q, d); }
    }
  }

  lemma MulAtLeast(a: int, d: int)
    requires a >= 1 && d > 0
    ensures a * d >= d
  {
  }

  /** `n mod 10m` splits into the last digit and the rest. */
  lemma ModSplit(n: nat, m: nat)
    requires m >= 1
    ensures n % (10 * m) == 10 * ((n / 10) % m) + n % 10
  {
    var q, r := (n / 10) / m, (n / 10) % m;
    assert n / 10 == q * m + r;
    assert n == 10 * (n / 10) + n % 10;
    assert n == q * (10 * m) + (10 * r + n % 10);
    DivModUnique(n, 10 * m, q, 10 * r + n % 10);
  }

  /** `i.toString()` for an integer in the safe range: a minus sign for
      negative values. */
  function IntToString(i: int): (s: string)
    ensures |s| >= 1
    ensures i >= 0 ==> s == NatToDecimal(i)
    ensures i < 0 ==> s == "-" + NatToDecimal(-i)
  {
    if i < 0 then "-" + NatToDecimal(-i) else NatToDecimal(i)
  }

  /** `s.padStart(width, fill)` with a one-character fill. */
  function PadStart(s: string, width: nat, fill: char): (r: string)
    ensures |r| == if |s| >= width then |s| else width
    ensures r[|r| - |s|..] == s
    ensures forall i :: 0 <= i < |r| - |s| ==> r[i] == fill
  {
    if |s| >= width then s else seq(width - |s|, _ => fill) + s
  }

  /** ASCII `toUpperCase`: the generated identifiers only hold `0-9a-z`. */
  function UpperChar(c: char): (u: char)
    ensures 'a' <= c <= 'z' ==> u as int == c as int - 32
    ensures !('a' <= c <= 'z') ==> u == c
  {
    if 'a' <= c <= 'z' then (c as int - 32) as char else c
  }

  function ToUpper(s: string): (r: string)
    ensures |r| == |s|
    ensures forall i :: 0 <= i < |s| ==> r[i] == UpperChar(s[i])
    ensures forall i :: 0 <= i < |r| ==> !('a' <= r[i] <= 'z')
  {
    seq(|s|, i requires 0 <= i < |s| => UpperChar(s[i]))
  }

  /** The white space and line terminators `String.prototype.trim` removes. */
  predicate IsJsSpace(c: char) {
    var k := c as int;
    k == 0x09 || k == 0x0A || k == 0x0B || k == 0x0C || k == 0x0D || k == 0x20
    || k == 0xA0 || k == 0x1680 || (0x2000 <= k <= 0x200A) || k == 0x2028
    || k == 0x2029 || k == 0x202F || k == 0x205F || k == 0x3000 || k == 0xFEFF
  }

  function TrimStart(s: string): (r: string)
    ensures |r| <= |s| && r == s[|s| - |r|..]
    ensures |r| > 0 ==> !IsJsSpace(r[0])
    ensures forall i :: 0 <= i < |s| - |r| ==> IsJsSpace(s[i])
  {
    if |s| > 0 && IsJsSpace(s[0]) then TrimStart(s[1..]) else s
  }

  function TrimEnd(s: string): (r: string)
    ensures |r| <= |s| && r == s[..|r|]
    ensures |r| > 0 ==> !IsJsSpace(r[|r| - 1])
    ensures forall i :: |r| <= i < |s| ==> IsJsSpace(s[i])
  {
    if |s| > 0 && IsJsSpace(s[|s| - 1]) then TrimEnd(s[..|s| - 1]) else s
  }

  /** `r` is the slice of `s` at `i`, and everything of `s` on either side
      of it is white space. */
  predicate SpaceAround(s: string, i: nat, r: string) {
    && i + |r| <= |s| && r == s[i..i + |r|]
    && (forall k :: 0 <= k < i ==> IsJsSpace(s[k]))
    && (forall k :: i + |r| <= k < |s| ==> IsJsSpace(s[k]))
  }

  /** `s.trim()`: the string without leading and trailing white space. The
      result is the slice of `s` that starts where the leading white space
      ends; everything cut off on either side is white space. */
  function Trim(s: string): (r: string)
    ensures |r| <= |s|
    ensures |r| > 0 ==> !IsJsSpace(r[0]) && !IsJsSpace(r[|r| - 1])
    ensures SpaceAround(s, |s| - |TrimStart(s)|, r)
  {
    var a := TrimStart(s);
    SliceBetweenSpace(s, a, TrimEnd(a));
    TrimEnd(a)
  }

  /** Cutting white space off the front of `s` to get `a`, then off the back
      of `a` to get `r`, leaves `r` surrounded by white space in `s`. */
  lemma SliceBetweenSpace(s: string, a: string, r: string)
    requires |a| <= |s| && a == s[|s| - |a|..]
    requires forall k :: 0 <= k < |s| - |a| ==> IsJsSpace(s[k])
    requires |r| <= |a| && r == a[..|r|]
    requires forall k :: |r| <= k < |a| ==> IsJsSpace(a[k])
    ensures SpaceAround(s, |s| - |a|, r)
  {
    var i := |s| - |a|;
    assert r == s[i..i + |r|];
    forall k | i + |r| <= k < |s|
      ensures IsJsSpace(s[k])
    {
      assert s[k] == a[k - i];
    }
  }

  /** A trimmed value is empty exactly when the input is all white space. */
  lemma TrimEmptyIffBlank(s: string)
    ensures |Trim(s)| == 0 <==> forall i :: 0 <= i < |s| ==> IsJsSpace(s[i])
  {
    var a := TrimStart(s);
    if |a| > 0 {
      assert !IsJsSpace(a[0]);
    }
  }
}

=== FILE: transactions.dfy ===
/** The deposit/withdrawal request record of server/models/Transaction.js:
    its enums, defaults, field validators and the pre-save hook that stamps
    the processing and completion times. Times are milliseconds. */
module Transactions {
  import opened Wrappers
  import opened Text

  datatype TxnType = Deposit | Withdrawal

  datatype Status = Pending | Processing | Completed | Rejected | Cancelled

  /** The status a request starts in when none is given. */
  const DefaultStatus := Pending

  /** The action types the services write into `adminAction`. */
  datatype ActionType = Approved | RejectedAction | Paid | CompletedAction

  /** The `adminAction.actionType` enum as the schema declares it. */
  const SchemaActions: set<ActionType> := {Approved, RejectedAction, Paid}

  datatype AdminAction = AdminAction(actionType: ActionType, actionDate: int, remarks: string)

  /** The default lifetime of a request: 24 hours. */
  const ExpiryMs := 24 * 60 * 60 * 1000

  datatype Transaction = Transaction(
    id: string, orderId: string, userId: string, kind: TxnType, amount: int, status: Status,
    utrNumber: Option<string>, upiId: Option<string>,
    adminId: Option<string>, adminAction: Option<AdminAction>,
    submittedAt: int, processedAt: Option<int>, completedAt: Option<int>,
    expiresAt: int, createdAt: int)

  function TypeName(k: TxnType): string {
    match k
    case Deposit => "DEPOSIT"
    case Withdrawal => "WITHDRAWAL"
  }

  function TrimOpt(v: Option<string>): Option<string> {
    if v.Some? then Some(Trim(v.value)) else None
  }

  /** A new request document: PENDING unless stated, stamped `now`, expiring
      a day later, with the UTR and UPI fields trimmed as they are set. */
  function NewTransaction(id: string, orderId: string, userId: string, kind: TxnType, amount: int,
                          utr: Option<string>, upi: Option<string>, now: int): (t: Transaction)
    ensures t.status == DefaultStatus
    ensures t.expiresAt == now + 86400000 && t.submittedAt == now && t.createdAt == now
    ensures t.processedAt == None && t.completedAt == None && t.adminAction == None && t.adminId == None
    ensures t.id == id && t.orderId == orderId && t.userId == userId && t.kind == kind && t.amount == amount
    ensures t.utrNumber.Some? <==> utr.Some?
    ensures utr.Some? ==> t.utrNumber.value == Trim(utr.value)
    ensures t.upiId.Some? <==> upi.Some?
    ensures upi.Some? ==> t.upiId.value == Trim(upi.value)
  {
    Transaction(id, orderId, userId, kind, amount, DefaultStatus, TrimOpt(utr), TrimOpt(upi),
                None, None, now, None, None, now + ExpiryMs, now)
  }

  datatype ValidationError = OrderIdRequired | UserIdRequired | UtrRequired | UpiRequired | BadActionType

  /** The checks a save runs: the required strings, the UTR number of a
      deposit, the UPI id of a withdrawal and the action-type enum given as
      `actions`. A custom validator never sees an absent value, so a missing
      UTR number or UPI id passes; one that is present must be non-empty. */
  function Errors(t: Transaction, actions: set<ActionType>): (e: set<ValidationError>)
    ensures OrderIdRequired in e <==> |t.orderId| == 0
    ensures UserIdRequired in e <==> |t.userId| == 0
    ensures UtrRequired in e <==> t.kind == Deposit && t.utrNumber == Some("")
    ensures UpiRequired in e <==> t.kind == Withdrawal && t.upiId == Some("")
    ensures UtrRequired in e ==> UpiRequired !in e
    ensures BadActionType in e <==> t.adminAction.Some? && t.adminAction.value.actionType !in actions
    ensures e <= {OrderIdRequired, UserIdRequired, UtrRequired, UpiRequired, BadActionType}
  {
    (if |t.orderId| == 0 then {OrderIdRequired} else {})
    + (if |t.userId| == 0 then {UserIdRequired} else {})
    + (if t.kind == Deposit && t.utrNumber.Some? && |t.utrNumber.value| == 0 then {UtrRequired} else {})
    + (if t.kind == Withdrawal && t.upiId.Some? && |t.upiId.value| == 0 then {UpiRequired} else {})
    + (if t.adminAction.Some? && t.adminAction.value.actionType !in actions then {BadActionType} else {})
  }

  /** A deposit whose UTR number is blank once trimmed fails validation. */
  lemma BlankUtrRejected(id: string, orderId: string, userId: string, amount: int, utr: string, upi: Option<string>, now: int)
    requires forall i :: 0 <= i < |utr| ==> IsJsSpace(utr[i])
    ensures UtrRequired in Errors(NewTransaction(id, orderId, userId, Deposit, amount, Some(utr), upi, now), SchemaActions)
  {
    TrimEmptyIffBlank(utr);
  }

  /** A withdrawal sent without a UPI id, and a deposit sent without a UTR
      number, pass validation: the field is left unset and its validator
      is skipped. */
  lemma AbsentFieldAccepted(id: string, orderId: string, userId: string, amount: int, now: int)
    ensures UpiRequired !in Errors(NewTransaction(id, orderId, userId, Withdrawal, amount, None, None, now), SchemaActions)
    ensures UtrRequired !in Errors(NewTransaction(id, orderId, userId, Deposit, amount, None, None, now), SchemaActions)
    ensures |orderId| > 0 && |userId| > 0 ==>
      Errors(NewTransaction(id, orderId, userId, Withdrawal, amount, None, None, now), SchemaActions) == {}
  {
  }

  /** The pre-save hook: when the status changed (or the document is new),
      PROCESSING stamps `processedAt` and COMPLETED stamps `completedAt`;
      nothing else is touched. `before` is the stored status, if any. */
  function PreSave(before: Option<Status>, t: Transaction, now: int): (r: Transaction)
    ensures r == t.(processedAt := r.processedAt, completedAt := r.completedAt)
    ensures r.processedAt != t.processedAt ==> r.status == Processing && before != Some(Processing)
    ensures r.completedAt != t.completedAt ==> r.status == Completed && before != Some(Completed)
    ensures before != Some(t.status) && t.status == Processing ==> r.processedAt == Some(now)
    ensures before != Some(t.status) && t.status == Completed ==> r.completedAt == Some(now)
  {
    var modified := before != Some(t.status);
    if modified && t.status == Processing then t.(processedAt := Some(now))
    else if modified && t.status == Completed then t.(completedAt := Some(now))
    else t
  }

  /** A status other than PROCESSING and COMPLETED stamps nothing, and
      neither does saving an unchanged status. */
  lemma PreSaveStampsOnlyOnChange(before: Option<Status>, t: Transaction, now: int)
    requires before == Some(t.status) || t.status !in {Processing, Completed}
    ensures PreSave(before, t, now) == t
  {
  }

  datatype SaveError = Invalid(errors: set<ValidationError>) | WriteFailed

  /** `save()`: validation first, then the hook, then the write, which may
      fail (`writeOk`). */
  function Save(before: Option<Status>, t: Transaction, now: int, actions: set<ActionType>, writeOk: bool): (r: Result<Transaction, SaveError>)
    ensures r.Ok? <==> Errors(t, actions) == {} && writeOk
    ensures r.Ok? ==> r.value == PreSave(before, t, now)
    ensures Errors(t, actions) != {} ==> r == Err(Invalid(Errors(t, actions)))
  {
    var e := Errors(t, actions);
    if e != {} then Err(Invalid(e))
    else if !writeOk then Err(WriteFailed)
    else Ok(PreSave(before, t, now))
  }
}

=== FILE: users.dfy ===
/** The wallet and betting counters of server/models/User.js (identity,
    phone, password and timestamps are not modelled). Balances and totals
    count tenths. */
module UserModel {
  import opened Payouts

  datatype User = User(balance: int, totalBets: int, totalWins: int)

  /** A new user: empty wallet and no betting history. */
  function NewUser(): (u: User)
    ensures BalanceValid(u) && u.balance == 0 && u.totalBets == 0 && u.totalWins == 0
  {
    User(0, 0, 0)
  }

  /** The schema's `min: 0` on the wallet balance. */
  predicate BalanceValid(u: User) {
    u.balance >= 0
  }

  /** `addBet`: the stake always joins `totalBets`; the payout joins
      `totalWins` only when positive; the balance is not touched. */
  function AddBet(u: User, stake: int, winTenths: int): (u': User)
    ensures u'.balance == u.balance
    ensures u'.totalBets - u.totalBets == Tenths(stake)
    ensures winTenths > 0 ==> u'.totalWins - u.totalWins == winTenths
    ensures winTenths <= 0 ==> u'.totalWins == u.totalWins
  {
    var withStake := u.(totalBets := u.totalBets + Tenths(stake));
    if winTenths > 0 then withStake.(totalWins := withStake.totalWins + winTenths) else withStake
  }

  /** Recording bets only ever grows the win total (payouts are never
      negative) and keeps a valid balance valid. */
  lemma AddBetKeepsWallet(u: User, stake: int, winTenths: int)
    requires BalanceValid(u)
    ensures BalanceValid(AddBet(u, stake, winTenths))
    ensures AddBet(u, stake, winTenths).totalWins >= u.totalWins
  {
  }
}

=== FILE: wallet.dfy ===
/** server/services/WalletService.js: posting an approved request to the
    user's wallet, and the balance and ledger queries. The Mongo session
    makes a posting all-or-nothing: on any error the database is left as it
    was. One flag, `writeOk`, stands for the outcome of the writes. */
module Wallet {
  import opened Wrappers
  import opened UserModel
  import opened Settlement
  import opened Transactions
  import opened Store

  datatype WalletError =
    | TxnMissing
    | UserMissing
    | InsufficientBalance
    | NegativeBalance
    | TxnInvalid(errors: set<ValidationError>)
    | Aborted

  /** The database after the operation, and what the caller receives. */
  datatype Posting = Posting(db: Db, result: Result<Transaction, WalletError>)

  /** The ledger line of a posting. */
  function EntryFor(t: Transaction, before: int, after: int): WalletEntry {
    WalletEntry(t.userId, t.id, if t.kind == Deposit then Credit else Debit, t.amount,
                before, after, TypeName(t.kind) + " - " + t.orderId, t.orderId)
  }

  /** The history rewrite of a posting. */
  function MarkCompleted(before: int, after: int, remarks: string): HistoryEntry -> HistoryEntry {
    (h: HistoryEntry) => h.(tag := CompletedTag, balanceBefore := before, balanceAfter := after, adminRemarks := Some(remarks))
  }

  /** The request as `processTransaction` saves it: COMPLETED, with the
      admin and the action PAID for a withdrawal or APPROVED for a deposit. */
  function CompletedRequest(t: Transaction, adminId: string, remarks: string, now: int): Transaction {
    t.(status := Completed, adminId := Some(adminId),
       adminAction := Some(AdminAction(if t.kind == Withdrawal then Paid else Approved, now, remarks)))
  }

  /** `processTransaction`. In order: the transaction and then its user must
      exist; a withdrawal needs the balance to cover it; the user's save
      rejects a negative balance; the transaction's save validates it; then
      the writes. On success the user's balance moves by the amount, the
      request is COMPLETED with action PAID (withdrawal) or APPROVED
      (deposit), one ledger entry records the move and every history entry
      of the request is tagged COMPLETED with the two balances. No check of
      the request's status is made. */
  function ProcessTransaction(db: Db, txnId: string, adminId: string, remarks: string, now: int, writeOk: bool): (r: Posting)
    ensures r.result.Err? ==> r.db == db
    ensures FindTxn(db.txns, txnId).None? ==> r.result == Err(TxnMissing)
    ensures FindTxn(db.txns, txnId).Some? && db.txns[FindTxn(db.txns, txnId).value].userId !in db.users ==>
      r.result == Err(UserMissing)
    ensures FindTxn(db.txns, txnId).Some? && db.txns[FindTxn(db.txns, txnId).value].userId in db.users ==>
      var t := db.txns[FindTxn(db.txns, txnId).value];
      var before := db.users[t.userId].balance;
      var after := if t.kind == Deposit then before + t.amount else before - t.amount;
      && (t.kind == Withdrawal && before < t.amount ==> r.result == Err(InsufficientBalance))
      && (r.result.Ok? <==>
            && (t.kind == Deposit || before >= t.amount)
            && after >= 0
            && Errors(CompletedRequest(t, adminId, remarks, now), SchemaActions) == {}
            && writeOk)
      && (r.result.Ok? ==> r.result.value == PreSave(Some(t.status), CompletedRequest(t, adminId, remarks, now), now))
    ensures r.result.Ok? ==>
      (&& FindTxn(db.txns, txnId).Some? && db.txns[FindTxn(db.txns, txnId).value].userId in db.users
       && db.txns[FindTxn(db.txns, txnId).value].userId in r.db.users)
    ensures r.result.Ok? ==>
      var i := FindTxn(db.txns, txnId).value;
      var t := db.txns[i];
      var before := db.users[t.userId].balance;
      var after := r.db.users[t.userId].balance;
      && (t.kind == Deposit ==> after == before + t.amount)
      && (t.kind == Withdrawal ==> before >= t.amount && after == before - t.amount)
      && after >= 0
      && r.db.users == db.users[t.userId := db.users[t.userId].(balance := after)]
      && r.db.ledger == db.ledger + [EntryFor(t, before, after)]
      && r.db.txns == db.txns[i := r.result.value]
      && r.result.value.status == Completed
      && r.result.value.adminAction == Some(AdminAction(if t.kind == Withdrawal then Paid else Approved, now, remarks))
      && |r.db.history| == |db.history|
      && (forall k :: 0 <= k < |r.db.history| ==>
            (r.db.history[k] == if db.history[k].txnId == txnId then MarkCompleted(before, after, remarks)(db.history[k]) else db.history[k]))
  {
    var found := FindTxn(db.txns, txnId);
    if found.None? then Posting(db, Err(TxnMissing))
    else
      var i := found.value;
      var t := db.txns[i];
      if t.userId !in db.users then Posting(db, Err(UserMissing))
      else
        var u := db.users[t.userId];
        var before := u.balance;
        if t.kind == Withdrawal && before < t.amount then Posting(db, Err(InsufficientBalance))
        else
          var after := if t.kind == Deposit then before + t.amount else before - t.amount;
          if after < 0 then Posting(db, Err(NegativeBalance))
          else
            var t' := CompletedRequest(t, adminId, remarks, now);
            match Save(Some(t.status), t', now, SchemaActions, writeOk)
            case Err(Invalid(e)) => Posting(db, Err(TxnInvalid(e)))
            case Err(WriteFailed) => Posting(db, Err(Aborted))
            case Ok(saved) =>
              Posting(Db(db.users[t.userId := u.(balance := after)], db.txns[i := saved],
                         db.ledger + [EntryFor(t, before, after)],
                         UpdateHistory(db.history, txnId, MarkCompleted(before, after, remarks))),
                      Ok(saved))
  }

  /** The newest ledger entry of a user, if any. */
  function LastEntryFor(ledger: seq<WalletEntry>, userId: string): (r: Option<WalletEntry>)
    ensures r.Some? ==> r.value in ledger && r.value.userId == userId
    ensures r.None? <==> forall k :: 0 <= k < |ledger| ==> ledger[k].userId != userId
    decreases |ledger|
  {
    if |ledger| == 0 then None
    else if ledger[|ledger| - 1].userId == userId then Some(ledger[|ledger| - 1])
    else LastEntryFor(ledger[..|ledger| - 1], userId)
  }

  /** Every user with ledger entries holds the balance the newest one
      reports. */
  predicate LedgerConsistent(db: Db) {
    forall u :: u in db.users && LastEntryFor(db.ledger, u).Some? ==>
      LastEntryFor(db.ledger, u).value.balanceAfter == db.users[u].balance
  }

  /** A posting keeps the ledger and the balances in step: the new entry's
      `balanceAfter` is the user's new balance, and nobody else moves. */
  lemma PostingKeepsLedgerConsistent(db: Db, txnId: string, adminId: string, remarks: string, now: int, writeOk: bool)
    requires LedgerConsistent(db)
    ensures LedgerConsistent(ProcessTransaction(db, txnId, adminId, remarks, now, writeOk).db)
  {
    var r := ProcessTransaction(db, txnId, adminId, remarks, now, writeOk);
    if r.result.Ok? {
      var t := db.txns[FindTxn(db.txns, txnId).value];
      var e := r.db.ledger[|r.db.ledger| - 1];
      assert r.db.ledger[..|r.db.ledger| - 1] == db.ledger;
      forall u | u in r.db.users && LastEntryFor(r.db.ledger, u).Some?
        ensures LastEntryFor(r.db.ledger, u).value.balanceAfter == r.db.users[u].balance
      {
        if u != t.userId {
          assert LastEntryFor(r.db.ledger, u) == LastEntryFor(db.ledger, u);
        }
      }
    }
  }

  /** Posting the same deposit twice credits it twice: nothing in
      `processTransaction` stops a replay. */
  lemma ReplayDoubleApplies(db: Db, txnId: string, adminId: string, remarks: string, now: int, now2: int)
    requires ProcessTransaction(db, txnId, adminId, remarks, now, true).result.Ok?
    requires var t := db.txns[FindTxn(db.txns, txnId).value]; t.kind == Deposit && t.amount >= 0
    ensures var t := db.txns[FindTxn(db.txns, txnId).value];
      var db1 := ProcessTransaction(db, txnId, adminId, remarks, now, true).db;
      var r2 := ProcessTransaction(db1, txnId, adminId, remarks, now2, true);
      && r2.result.Ok?
      && r2.db.users[t.userId].balance == db.users[t.userId].balance + 2 * t.amount
      && |r2.db.ledger| == |db.ledger| + 2
  {
    var i := FindTxn(db.txns, txnId).value;
    var t := db.txns[i];
    var r1 := ProcessTransaction(db, txnId, adminId, remarks, now, true);
    FindAfterUpdate(db.txns, i, r1.result.value, txnId);
  }

  /** `getWalletBalance`: 0 for an unknown user. */
  function GetWalletBalance(users: UserStore, userId: string): (b: int)
    ensures userId !in users ==> b == 0
    ensures userId in users ==> b == users[userId].balance
  {
    if userId in users then users[userId].balance else 0
  }

  /** After a posting the balance query reports what the new ledger entry
      says. */
  lemma BalanceMatchesNewEntry(db: Db, txnId: string, adminId: string, remarks: string, now: int, writeOk: bool)
    requires ProcessTransaction(db, txnId, adminId, remarks, now, writeOk).result.Ok?
    ensures var r := ProcessTransaction(db, txnId, adminId, remarks, now, writeOk);
      var e := r.db.ledger[|r.db.ledger| - 1];
      GetWalletBalance(r.db.users, e.userId) == e.balanceAfter
  {
  }

  /** A user's ledger entries in insertion order. */
  function EntriesOf(ledger: seq<WalletEntry>, userId: string): (r: seq<WalletEntry>)
    ensures forall e :: e in r <==> e in ledger && e.userId == userId
    ensures |r| <= |ledger|
    decreases |ledger|
  {
    if |ledger| == 0 then []
    else
      var init := EntriesOf(ledger[..|ledger| - 1], userId);
      var last := ledger[|ledger| - 1];
      assert ledger == ledger[..|ledger| - 1] + [last];
      if last.userId == userId then init + [last] else init
  }

  function Reverse<T>(s: seq<T>): (r: seq<T>)
    ensures |r| == |s|
    ensures forall j :: 0 <= j < |s| ==> r[j] == s[|s| - 1 - j]
    decreases |s|
  {
    if |s| == 0 then [] else [s[|s| - 1]] + Reverse(s[..|s| - 1])
  }

  datatype HistoryPage = HistoryPage(entries: seq<WalletEntry>, totalPages: nat, currentPage: int, total: nat)

  /** `getWalletHistory`: the user's entries newest first, page `page` of
      `limit` entries, with the count and the number of pages. Entries are
      taken newest first in insertion order. */
  function GetWalletHistory(ledger: seq<WalletEntry>, userId: string, page: int, limit: int): (r: HistoryPage)
    requires page >= 1 && limit >= 1
    ensures r.total == |EntriesOf(ledger, userId)|
    ensures r.totalPages == CeilDiv(r.total, limit) && r.currentPage == page
    ensures |r.entries| <= limit
    ensures |r.entries| > 0 <==> page <= r.totalPages
  {
    var mine := EntriesOf(ledger, userId);
    PageWithinCount(Reverse(mine), page, limit);
    HistoryPage(Window(Reverse(mine), page, limit), CeilDiv(|mine|, limit), page, |mine|)
  }

  /** `entries` is page `page` of `mine` read from the newest: entry `j`
      is the one `(page - 1) * limit + j` places from the end, and every
      entry belongs to `userId`. */
  predicate NewestFirstPage(entries: seq<WalletEntry>, mine: seq<WalletEntry>, userId: string, page: int, limit: int)
    requires page >= 1 && limit >= 1
  {
    forall j :: 0 <= j < |entries| ==>
      && 0 <= Skip(page, limit) + j < |mine|
      && entries[j] == mine[|mine| - 1 - (Skip(page, limit) + j)]
      && entries[j].userId == userId
  }

  /** Page `page` holds the user's entries counted from the newest, from
      position `(page - 1) * limit` on, and nobody else's. */
  lemma HistoryPageContents(ledger: seq<WalletEntry>, userId: string, page: int, limit: int)
    requires page >= 1 && limit >= 1
    ensures NewestFirstPage(GetWalletHistory(ledger, userId, page, limit).entries,
                            EntriesOf(ledger, userId), userId, page, limit)
  {
    var mine := EntriesOf(ledger, userId);
    var r := GetWalletHistory(ledger, userId, page, limit);
    assert forall k :: 0 <= k < |mine| ==> mine[k] in mine;
    OwnPage(mine, r.entries, userId, page, limit);
  }

  lemma OwnPage(mine: seq<WalletEntry>, entries: seq<WalletEntry>, userId: string, page: int, limit: int)
    requires page >= 1 && limit >= 1
    requires forall k :: 0 <= k < |mine| ==> mine[k].userId == userId
    requires entries == Window(Reverse(mine), page, limit)
    ensures NewestFirstPage(entries, mine, userId, page, limit)
  {
    WindowOfReverse(mine, page, limit);
  }

  lemma WindowOfReverse<T>(s: seq<T>, page: int, limit: int)
    requires page >= 1 && limit >= 1
    ensures |Window(Reverse(s), page, limit)| <= limit
    ensures forall j :: 0 <= j < |Window(Reverse(s), page, limit)| ==>
      0 <= Skip(page, limit) + j < |s| && Window(Reverse(s), page, limit)[j] == s[|s| - 1 - (Skip(page, limit) + j)]
  {
    var w := Window(Reverse(s), page, limit);
    var skip := Skip(page, limit);
    forall j | 0 <= j < |w| ensures 0 <= skip + j < |s| && w[j] == s[|s| - 1 - (skip + j)] {
      assert w[j] == Reverse(s)[skip + j];
    }
  }

  /** A request the TTL monitor has deleted can no longer be posted. */
  lemma ExpiredPostingMissing(db: Db, now: int, txnId: string, adminId: string, remarks: string, at: int, writeOk: bool)
    requires forall a, b :: 0 <= a < b < |db.txns| ==> db.txns[a].id != db.txns[b].id
    requires FindTxn(db.txns, txnId).Some? && db.txns[FindTxn(db.txns, txnId).value].expiresAt <= now
    ensures ProcessTransaction(ExpireRequests(db, now), txnId, adminId, remarks, at, writeOk).result == Err(TxnMissing)
  {
    ExpiredNotFound(db.txns, txnId, now);
  }
}

=== FILE: wrappers.dfy ===
/** Optional values and fallible results, used wherever the source returns
    `null` or throws. */
module Wrappers {

  /** A value that may be absent (the source's `null` / `undefined`). */
  datatype Option<+T> = None | Some(value: T)

  /** The outcome of an operation that may throw: `Err` carries the reason. */
  datatype Result<+T, +E> = Ok(value: T) | Err(error: E)
}
